=== FILE: README.md ===
# poi message-flow bridge, modelled in Dafny

`poi_messageflow_bridge.js` connects to a browser's remote-debugging endpoint (the
Chrome DevTools Protocol), picks the game's target, and attaches to every webview
session. It captures two kinds of traffic:

- responses of the game's API (`/kcsapi/`);
- its assets (`/kcs2/`).

Each capture becomes a JSON payload. The payload is relayed to one of three local
channels (`api`, `image`, `imageJson`). It goes over that channel's WebSocket
when the socket is ready, and otherwise as one HTTP POST to the channel's
fallback address.

API responses are captured on two paths:

- The Fetch path pauses the response, reads its body, and then resumes it with
  `Fetch.continueResponse`.
- The Network path observes the request and asks for the body when loading
  finishes.

A two-second deduplicator keyed on the capture suppresses repeats.

The model has one module per concern:

- `Dedupe`: the deduplicator, as the class `RecentSends`. Its list is updated in
  place by a backward splice loop.
- `Base64`, `Utf8`: the base64 heuristic and the encoding of asset bodies
  (base64 per section 4 of RFC 4648, of the body's UTF-8 octets).
- `Payloads`: payload records, dedupe keys, and the `.json` routing of `/kcs2/`
  captures.
- `Targets`: `pick`, the start-up exit, and the explicit-attach rule.
- `Delivery`: one channel (`makeSock`), as the class `Channel`. It covers the
  socket state, readiness, the reconnect timer, and the send-or-POST decision.
- `Engine`: the message handler, as the class `Bridge`.
  - It holds the command counter, the request table `reqInfo`, and the
    pending-body table `pending`.
  - It has one method per protocol event. Each method returns the commands and
    deliveries that event causes, in order.
- `Keys`, `Text`, `Protocol`, `Wrappers`, `Octets`: table keys, JavaScript
  string operations, command records, `Option`, and the octet type.
- `Scenarios`: runs of a fresh bridge through whole event sequences.

The model follows the code as written. Four behaviours of the code are worth
knowing:

- The Fetch path cannot suppress the Network path, or the reverse. The comments
  at poi_messageflow_bridge.js:396 and :437 say the dedupe exists to stop one
  path from sending again what the other already sent. But each key begins with
  its path tag (`fetch` or `net`), so the keys never coincide
  (`PathTagsSeparateKeys`). The same response captured on both paths is
  forwarded twice (`Scenarios.BothPathsForward`).
- The forwarded `uri` is `pathname + search`, so it includes the query string
  (`Scenarios.PortCall`).
- `Network.responseReceived` asks for bodies of `/kcs2/` urls only. API bodies
  on the Network path come only from the `loadingFinished` fallback.
- A body response without a string body returns at line 378, before the resume.
  The comment at 402 says `Fetch.continueResponse` is always sent, yet a paused
  request answered this way is never resumed
  (`Scenarios.BodylessAnswerStalls`).

## Model

| member | source | states |
|---|---|---|
| Dedupe.RecentSends.constructor | poi_messageflow_bridge.js:124 | the list of recent sends starts empty |
| Dedupe.RecentSends.ShouldSkip | poi_messageflow_bridge.js:125-142 | the backward splice loop leaves exactly the evicted list; the answer is whether a survivor has the key; the key is appended with `now` exactly on a miss; keys stay pairwise distinct |
| Dedupe.Live | poi_messageflow_bridge.js:131 | the definition of the survival test: an entry at most 2000 ms old stays |
| Dedupe.Evict | poi_messageflow_bridge.js:130-134 | the definition of the eviction pass: the entries no more than 2000 ms old, in their order; never longer than its input |
| Dedupe.Seen | poi_messageflow_bridge.js:130-138 | the definition of the skip answer: some entry surviving eviction has the key |
| Dedupe.Record | poi_messageflow_bridge.js:130-141 | the list left behind: the evicted list, with the key appended with `now` on a miss; afterwards the key is always present and the list grew by at most one |
| Dedupe.EvictMembership | poi_messageflow_bridge.js:130-134 | an entry survives eviction iff it was in the list and `now - ts <= 2000` |
| Dedupe.EvictConcat | poi_messageflow_bridge.js:130-134 | eviction works entry by entry, so the survivors keep their order |
| Dedupe.EvictKeepsBoundary | poi_messageflow_bridge.js:131 | an entry exactly 2000 ms old survives |
| Dedupe.EvictAllLive | poi_messageflow_bridge.js:130-134 | a list of live entries is left unchanged |
| Dedupe.EvictDistinct | poi_messageflow_bridge.js:130-134 | eviction keeps keys pairwise distinct |
| Dedupe.RecordDistinct | poi_messageflow_bridge.js:136-141 | recording keeps keys pairwise distinct |
| Dedupe.RecordOnHit | poi_messageflow_bridge.js:136-138 | on a hit nothing is appended and no timestamp is refreshed |
| Dedupe.RepeatAfterWindow | poi_messageflow_bridge.js:124-142 | a first send is recorded and not skipped; after it, a send is skipped iff it has the same key and comes at most 2000 ms later; a same-key send after the window is recorded with the new time |
| Base64.SextetRoundTrip | poi_messageflow_bridge.js:482 | the 64-character alphabet of RFC 4648 maps each sextet to a distinct character |
| Base64.Encode | poi_messageflow_bridge.js:482 | the encoding of n octets has 4 * ceil(n / 3) characters |
| Base64.EncodeAlphabet | poi_messageflow_bridge.js:482 | every character of an encoding is in `A-Za-z0-9+/=` |
| Base64.DecodeEncode | poi_messageflow_bridge.js:482 | decoding an encoding gives back the octets |
| Base64.NonZeroPadBitsRejected | poi_messageflow_bridge.js:482 | the decoder accepts `QQ==` for the octet 65 and rejects `QR==`, whose unused bits are not zero, so only the canonical encoding decodes |
| Base64.StripSpaceKeepsOthers | poi_messageflow_bridge.js:208 | no white-space character is left; every other character of the input occurs in the result; all-space text strips to empty and space-free text is unchanged |
| Base64.StripSpaceConcat | poi_messageflow_bridge.js:208 | stripping works character by character: the strip of a concatenation is the concatenation of the strips, so the other characters keep their order and their repeats |
| Base64.StripSpaceNoSpace | poi_messageflow_bridge.js:208 | stripping leaves text without white space unchanged |
| Base64.IsJsSpace | poi_messageflow_bridge.js:208 | the definition of `\s`: the ECMAScript white-space and line-terminator characters |
| Base64.IsAlphabet | poi_messageflow_bridge.js:210 | the definition of the class `[A-Za-z0-9+/=]` |
| Base64.StripSpace | poi_messageflow_bridge.js:208 | the definition of `replace(/\s+/g, '')`: never longer than its input |
| Base64.LooksLikeBase64 | poi_messageflow_bridge.js:206-211 | the definition of the heuristic: at least 32 characters, and the stripped text a non-empty multiple of 4 long made only of `A-Za-z0-9+/=` |
| Base64.AllSpaceIsNotBase64 | poi_messageflow_bridge.js:206-211 | text that is all white space never looks like base64, however long |
| Base64.ForeignCharIsNotBase64 | poi_messageflow_bridge.js:206-211 | one character that is neither white space nor in the alphabet rules the text out |
| Base64.EncodedLooksLikeBase64 | poi_messageflow_bridge.js:206-211 | the encoding of at least 22 octets passes the heuristic |
| Utf8.EncodeScalar | poi_messageflow_bridge.js:482 | a character takes 1 to 4 octets, and 1 exactly when it is ASCII |
| Utf8.Encode | poi_messageflow_bridge.js:482 | text of n characters takes between n and 4n octets |
| Utf8.DecodeEncodeScalar | poi_messageflow_bridge.js:482 | the octets of one character decode back to it, whatever follows |
| Utf8.DecodeEncode | poi_messageflow_bridge.js:482 | `Buffer.from(text, 'utf8')` loses nothing: strict UTF-8 decoding gives the text back |
| Utf8.EncodeAscii | poi_messageflow_bridge.js:482 | ASCII text encodes byte for byte |
| Text.Lower | poi_messageflow_bridge.js:270 | lower-casing keeps the length and maps each character |
| Text.Contains | poi_messageflow_bridge.js:271 | the definition of `includes`: the text occurs at some position (also used at 297, 344 and 360) |
| Text.Join | poi_messageflow_bridge.js:397-399 | the definition of `join`: the parts with the separator between neighbours (also at 438-440) |
| Text.LowerIdempotent | poi_messageflow_bridge.js:269 | lower-casing twice is lower-casing once |
| Text.Prefix | poi_messageflow_bridge.js:399 | `slice(0, n)` is a prefix of at most n characters |
| Text.SplitJoin | poi_messageflow_bridge.js:397-399 | a `join` of parts free of the separator can be split back into the parts |
| Text.NatToString | poi_messageflow_bridge.js:299 | a command id is written as a non-empty string of decimal digits |
| Text.ParseNatToString | poi_messageflow_bridge.js:299 | reading the decimal rendering back gives the id |
| Keys.PendKey | poi_messageflow_bridge.js:299 | the definition of the pending-table key: session id, `:`, decimal command id (also at 346, 363 and, for the lookup, 372) |
| Keys.ReqKey | poi_messageflow_bridge.js:319 | the definition of the request-table key: session id, `:`, request id (also at 340 and 358) |
| Keys.IdOfPendKey | poi_messageflow_bridge.js:299 | the command id is recoverable from its pending key |
| Keys.PendKeyInjective | poi_messageflow_bridge.js:372 | two pending keys are equal iff their session ids and command ids are |
| Payloads.OrGet | poi_messageflow_bridge.js:302 | `method \|\| 'GET'`: a given method is kept, and a missing one becomes `GET` |
| Payloads.Uri | poi_messageflow_bridge.js:383 | the definition of the forwarded uri: pathname followed by the search string (also at 424 and 459) |
| Payloads.ApiPayload | poi_messageflow_bridge.js:381-394 | an API payload forwards the body and postData untouched; encoding is base64 iff the protocol flagged it; uri is pathname plus search |
| Payloads.DedupeKey | poi_messageflow_bridge.js:397-399 | the definition of the key: tag, method, uri, query string, post data and the first 64 body characters joined with `\|` (the Network path's key at 438-440 is the same with tag `net`) |
| Payloads.PathTagsSeparateKeys | poi_messageflow_bridge.js:397-399 | no Fetch-path key equals any Network-path key |
| Payloads.DedupeKeyFields | poi_messageflow_bridge.js:438-440 | for fields without `\|`, two keys are equal iff their six fields are |
| Payloads.BodyTailDoesNotMatter | poi_messageflow_bridge.js:399 | bodies that agree on their first 64 characters give the same key |
| Payloads.IsJsonUri | poi_messageflow_bridge.js:463 | the definition of `/\.json($\|\?)/i.test(uri)`: `.json` in any letter case at the end or just before a `?` |
| Payloads.JsonPathname | poi_messageflow_bridge.js:463 | a pathname ending in `.json`, in any letter case, routes as JSON whatever its query |
| Payloads.NoDotNoJson | poi_messageflow_bridge.js:463 | a uri without a dot never routes as JSON |
| Payloads.AssetBody | poi_messageflow_bridge.js:480-482 | the definition of the three-way choice: the body as given when flagged or when it looks like base64, otherwise base64 of its UTF-8 octets |
| Payloads.AssetPayload | poi_messageflow_bridge.js:458-498 | a `.json` uri goes to imageJson, raw, body unchanged; anything else goes to image tagged base64, with the body as given when flagged or already base64-looking and otherwise base64 of its UTF-8 octets (`AssetBody`); postData is always empty; method, uri and query come from the request |
| Payloads.AssetBodyRecoverable | poi_messageflow_bridge.js:480-482 | the asset body is passed through when flagged or when it looks encoded; otherwise it decodes back to exactly the original text |
| Payloads.AssetBodyStable | poi_messageflow_bridge.js:480-482 | for a body that is flagged, already looks like base64, or has at least 22 UTF-8 octets, the result looks like base64 (or was flagged) and a second pass changes nothing; shorter bodies are encoded again (`ShortBase64IsEncoded`) |
| Payloads.ShortBase64IsEncoded | poi_messageflow_bridge.js:480-482 | the text `AAAA` is under the length floor, so it is encoded again to `QUFBQQ==` |
| Targets.FindIndex | poi_messageflow_bridge.js:223 | `find` gives the first index satisfying the test, or none when no element does |
| Targets.Preferred | poi_messageflow_bridge.js:222 | the definition of rule (a)'s test: a webview or page whose lower-cased url the filter matches |
| Targets.PickIndex | poi_messageflow_bridge.js:219-227 | the definition of `pick`'s choice: the first of the four `find` calls that succeeds, element 0 as the last resort |
| Targets.PickIndexSpec | poi_messageflow_bridge.js:219-227 | `pick` prefers the first webview/page the filter matches, then the first webview, then the first page, then element 0; it is undefined only for an empty list |
| Targets.Pick | poi_messageflow_bridge.js:219-227 | the picked target is an element of the list, and there is none only for an empty list |
| Targets.Select | poi_messageflow_bridge.js:229-233 | start-up exits with status 1 unless the picked target has a debugger address |
| Targets.ShouldAttach | poi_messageflow_bridge.js:269-271 | the definition of the explicit-attach rule: a webview whose lower-cased url contains `play.games.dmm.com` or `kancolle` |
| Targets.ShouldAttachIgnoresCase | poi_messageflow_bridge.js:269-271 | two urls with the same lower-cased form give the same attach decision |
| Targets.ShouldAttachLowered | poi_messageflow_bridge.js:269-271 | lower-casing the url first does not change the attach decision |
| Targets.MatchingPageBeatsOtherWebview | poi_messageflow_bridge.js:219-227 | a page the filter matches wins over a webview it does not match, in either order |
| Delivery.Channel.constructor | poi_messageflow_bridge.js:178-200 | a new channel is not ready and is either connecting or has a reconnect armed |
| Delivery.Channel.Schedule | poi_messageflow_bridge.js:189 | the held timer is cleared and exactly one fresh timer is armed |
| Delivery.Channel.Start | poi_messageflow_bridge.js:183-188 | `open()` makes a connecting socket, or schedules a retry when the constructor throws |
| Delivery.Channel.OnOpen | poi_messageflow_bridge.js:185 | the open event makes the channel ready |
| Delivery.Channel.OnClose | poi_messageflow_bridge.js:186 | a close makes the channel not ready and arms exactly one reconnect timer |
| Delivery.Channel.OnError | poi_messageflow_bridge.js:187 | an error only drops readiness |
| Delivery.Channel.OnTimer | poi_messageflow_bridge.js:189 | a fired reconnect timer runs `open()` again |
| Delivery.Channel.SendJson | poi_messageflow_bridge.js:190-196 | `sendJson` succeeds iff the socket is open and the frame goes out |
| Delivery.Channel.IsReady | poi_messageflow_bridge.js:199 | the definition of `isReady`: the `ready` flag |
| Delivery.Channel.RouteFor | poi_messageflow_bridge.js:407-413 | the definition of the route: the socket when ready, open and the frame goes out, else a POST to the first fallback |
| Delivery.Channel.Deliver | poi_messageflow_bridge.js:407-413 | a payload goes over the socket iff the channel is ready and the frame goes out; otherwise it goes in exactly one POST, to the first fallback |
| Engine.SocketUrl | poi_messageflow_bridge.js:109-113 | the definition of each channel's WebSocket address |
| Engine.FallbackUrls | poi_messageflow_bridge.js:116-120 | the definition of each channel's HTTP fallback list, one address apiece |
| Engine.Bridge.constructor | poi_messageflow_bridge.js:236-250 | the bridge starts with counter 0, empty tables, an empty deduplicator and the three configured channels |
| Engine.Bridge.Send | poi_messageflow_bridge.js:237-243 | each command takes the next id, so ids strictly increase |
| Engine.Bridge.Expect | poi_messageflow_bridge.js:299-306 | a pending entry is filed under a key no waiting entry has |
| Engine.Bridge.OnConnect | poi_messageflow_bridge.js:254-261 | the five root-session set-up commands, in order, with consecutive ids |
| Engine.Bridge.OnTargetCreated | poi_messageflow_bridge.js:268-274 | one `attachToTarget` exactly for a webview whose url mentions the game's host |
| Engine.Bridge.OnAttachedToTarget | poi_messageflow_bridge.js:277-290 | the four set-up commands on the new session, ending with Fetch interception of `*://*/kcsapi/*` at the response stage |
| Engine.Bridge.OnRequestPaused | poi_messageflow_bridge.js:293-313 | an API url gets one body request and a pending Fetch entry and is not resumed yet; any other url gets exactly one `continueRequest` |
| Engine.Bridge.OnRequestWillBeSent | poi_messageflow_bridge.js:316-335 | a request with an id and a url is recorded as not yet asked; anything else is ignored |
| Engine.Bridge.OnResponseReceived | poi_messageflow_bridge.js:338-352 | a known `/kcs2/` request gets one body request and is marked asked; nothing else changes |
| Engine.Bridge.OnLoadingFinished | poi_messageflow_bridge.js:356-368 | a known API request not yet asked gets one body request and is marked asked; request entries are never deleted |
| Engine.Bridge.RouteOn | poi_messageflow_bridge.js:202-204 | the definition of the channel choice: the route of `wsApi`, `wsImage` or `wsImageJson` by channel name (used at 407, 446, 471 and 490) |
| Engine.Bridge.DeliverOn | poi_messageflow_bridge.js:446-452 | a payload goes over the socket, or in one POST to its own channel's fallback |
| Engine.Bridge.ForwardApi | poi_messageflow_bridge.js:397-413 | a payload whose key is fresh in the window is dropped, any other goes to the API channel; the key is recorded as the deduplicator prescribes, and nothing is resumed |
| Engine.Bridge.Capture | poi_messageflow_bridge.js:379-498 | a string body becomes the capture of its kind; the API paths deduplicate on their tagged key; a Fetch capture is resumed exactly once, after its delivery |
| Engine.Bridge.OnCommandResponse | poi_messageflow_bridge.js:371-499 | the first matching response deletes its pending entry and unknown ids are ignored; without a string body nothing follows; a Fetch capture is resumed exactly once, duplicate or not |
| Scenarios.InterceptedApiCall | poi_messageflow_bridge.js:293-417 | an intercepted API call is fetched, posted once to the API fallback while the socket is down, and resumed once |
| Scenarios.PortCall | poi_messageflow_bridge.js:381-394 | the port API call with `?api_token=1` forwards uri `/kcsapi/api_port/port?api_token=1` and its query |
| Scenarios.FetchCapture | poi_messageflow_bridge.js:381-417 | on any consistent bridge, a Fetch-path capture is forwarded unless its key is fresh in the window, and it is resumed exactly once |
| Scenarios.NetworkCapture | poi_messageflow_bridge.js:422-456 | a Network-path capture is forwarded unless its key is fresh in the window, and it resumes nothing |
| Scenarios.BothPathsForward | poi_messageflow_bridge.js:397-440 | one response captured on both paths is forwarded twice and resumed once |
| Scenarios.RepeatedInterception | poi_messageflow_bridge.js:401-417 | two interceptions of one call are forwarded once within 2000 ms and twice after it; each is resumed |
| Scenarios.BodylessAnswerStalls | poi_messageflow_bridge.js:371-378 | a body response without a string body consumes the entry and leaves the request paused |
| Scenarios.AssetCapture | poi_messageflow_bridge.js:338-498 | a `/kcs2/` asset is fetched on its response and posted to imageJson raw or to image as base64 |
| Scenarios.ReconnectCycle | poi_messageflow_bridge.js:178-200 | a channel POSTs until the reconnect opens its socket, sends over it while it is open, and POSTs again after a close |

## Left out

- The logger (lines 17-101), all `console` output, and the `Math.random()`-sampled logging (478, 497). These are output only.
- `getJSON` and `postJSON` (145-175). Target discovery is an input to `Targets.Select`. A POST appears as the route `Posted(url)`; its outcome is ignored, as in the code.
- The WebSocket transports. Whether `new WebSocket` returns normally is the parameter `connects` (the `*Up` flags of the bridge). `frameOk` says whether the frame goes out: the socket is still OPEN and `ws.send` returns normally. The CLOSING state is not a socket state of the model. A socket that is closing keeps `ready` until its 'close' event, and `sendJson` then returns false at line 192 without sending. The model shows that case only as `frameOk` being false. Frames and commands are values, not JSON text.
- Real timers. `setTimeout`/`clearTimeout` become a set of armed handles. The 1000 ms delay is not kept.
- `new URL` and `URLSearchParams`. The parser is the function parameter `parse`, and the query-parameter map is whatever it returns. When `new URL` throws, the handler stops: a Fetch capture is then never resumed. This path is not modelled.
- The `RegExp(FILTER)` engine. It is an abstract predicate on the lower-cased url.
- Text.Lower: lowers ASCII letters only. `toLowerCase` also folds non-ASCII letters, which matters only for non-ASCII urls.
- JavaScript strings are UTF-16. Model strings are sequences of Unicode scalar values, which has two consequences:
  - `slice(0, 64)` of a body counts code units in the code but characters here. They differ for text outside the Basic Multilingual Plane.
  - A lone surrogate, which `Buffer.from` would replace, cannot occur.
- The async interleaving of the handler. Each message is processed to completion. In the code, other messages can run while `await postJSON` is pending.
- Events from a socket that `makeSock` has already replaced. The model assumes every socket event comes from the current socket.
- Missing message fields. An absent session id, url or method is the empty string, and an absent `targetInfo` or `request` is `None`. A missing `requestId` in `responseReceived` or `loadingFinished` is read as a string key, as the code does with `undefined`.
- The `questlist` logging in `requestWillBeSent` (327-333) and the attach logging (279).
- The debug connection's own close, and the process exit on start-up failure, beyond the exit status.

=== FILE: base64.dfy ===
/**
 * Base 64 encoding with the standard alphabet and '=' padding (section 4 of
 * RFC 4648), as `Buffer.prototype.toString('base64')` writes it, and the
 * bridge's test for text that already looks base64-encoded.
 */
module Base64 {
  import opened Wrappers
  import opened Octets

  /** The character for a 6-bit value: A-Z, a-z, 0-9, '+', '/'. */
  function SextetChar(i: int): (c: char)
    requires 0 <= i < 64
    ensures IsAlphabet(c) && c != '='
  {
    if i < 26 then ('A' as int + i) as char
    else if i < 52 then ('a' as int + (i - 26)) as char
    else if i < 62 then ('0' as int + (i - 52)) as char
    else if i == 62 then '+'
    else '/'
  }

  /** The 6-bit value of an alphabet character other than '='. */
  function SextetValue(c: char): Option<int> {
    if 'A' <= c <= 'Z' then Some(c as int - 'A' as int)
    else if 'a' <= c <= 'z' then Some(c as int - 'a' as int + 26)
    else if '0' <= c <= '9' then Some(c as int - '0' as int + 52)
    else if c == '+' then Some(62)
    else if c == '/' then Some(63)
    else None
  }

  /** The character class `[A-Za-z0-9+/=]`. */
  predicate IsAlphabet(c: char) {
    ('A' <= c <= 'Z') || ('a' <= c <= 'z') || ('0' <= c <= '9') || c == '+' || c == '/' || c == '='
  }

  lemma SextetRoundTrip(i: int)
    requires 0 <= i < 64
    ensures SextetValue(SextetChar(i)) == Some(i)
  {
  }

  /** Three octets as four characters. */
  function EncodeGroup(a: byte, b: byte, c: byte): string {
    [SextetChar(a / 4), SextetChar(a % 4 * 16 + b / 16), SextetChar(b % 16 * 4 + c / 64), SextetChar(c % 64)]
  }

  function Encode(b: seq<byte>): (r: string)
    ensures |r| == (|b| + 2) / 3 * 4
    decreases |b|
  {
    if |b| == 0 then ""
    else if |b| == 1 then [SextetChar(b[0] / 4), SextetChar(b[0] % 4 * 16), '=', '=']
    else if |b| == 2 then [SextetChar(b[0] / 4), SextetChar(b[0] % 4 * 16 + b[1] / 16), SextetChar(b[1] % 16 * 4), '=']
    else EncodeGroup(b[0], b[1], b[2]) + Encode(b[3..])
  }

  /** One quantum of four characters: the one to three octets it carries. */
  function DecodeQuantum(q: string): Option<seq<byte>>
    requires |q| == 4
  {
    match (SextetValue(q[0]), SextetValue(q[1]), SextetValue(q[2]), SextetValue(q[3]))
    case (Some(v0), Some(v1), None, None) =>
      if q[2] == '=' && q[3] == '=' && v1 % 16 == 0 then Some([v0 * 4 + v1 / 16]) else None
    case (Some(v0), Some(v1), Some(v2), None) =>
      if q[3] == '=' && v2 % 4 == 0 then Some([v0 * 4 + v1 / 16, v1 % 16 * 16 + v2 / 4]) else None
    case (Some(v0), Some(v1), Some(v2), Some(v3)) =>
      Some([v0 * 4 + v1 / 16, v1 % 16 * 16 + v2 / 4, v2 % 4 * 64 + v3])
    case _ => None
  }

  /**
   * Decoding; padding may only end the text, and the bits that padding
   * leaves unused must be zero, so each octet string has one encoding.
   */
  function Decode(s: string): Option<seq<byte>>
    decreases |s|
  {
    if |s| == 0 then Some([])
    else if |s| < 4 then None
    else
      match DecodeQuantum(s[..4])
      case None => None
      case Some(head) =>
        if |head| < 3 && |s| > 4 then None
        else
          match Decode(s[4..])
          case None => None
          case Some(rest) => Some(head + rest)
  }

  lemma DecodeQuantumOf(q: string, v0: int, v1: int, v2: int, v3: int)
    requires |q| == 4
    requires SextetValue(q[0]) == Some(v0) && SextetValue(q[1]) == Some(v1)
    ensures SextetValue(q[2]) == Some(v2) && SextetValue(q[3]) == Some(v3) ==>
      DecodeQuantum(q) == Some([v0 * 4 + v1 / 16, v1 % 16 * 16 + v2 / 4, v2 % 4 * 64 + v3])
    ensures SextetValue(q[2]) == Some(v2) && q[3] == '=' && v2 % 4 == 0 ==>
      DecodeQuantum(q) == Some([v0 * 4 + v1 / 16, v1 % 16 * 16 + v2 / 4])
    ensures q[2] == '=' && q[3] == '=' && v1 % 16 == 0 ==> DecodeQuantum(q) == Some([v0 * 4 + v1 / 16])
  {
  }

  /** How the sextets of two neighbouring octets `x` and `lo` fit back together. */
  lemma Rejoin(x: int, lo: int)
    requires 0 <= x < 256 && 0 <= lo < 256
    ensures x / 4 * 4 + (x % 4 * 16 + lo / 16) / 16 == x
    ensures (x % 16 * 4 + lo / 64) / 4 == x % 16
    ensures (x % 4 * 16 + lo / 16) % 16 == lo / 16
    ensures (x % 16 * 4 + lo / 64) % 4 == lo / 64
  {
  }

  lemma DecodeGroup(a: byte, b: byte, c: byte)
    ensures DecodeQuantum(EncodeGroup(a, b, c)) == Some([a, b, c])
  {
    var v0, v1, v2, v3 := a / 4, a % 4 * 16 + b / 16, b % 16 * 4 + c / 64, c % 64;
    SextetRoundTrip(v0);
    SextetRoundTrip(v1);
    SextetRoundTrip(v2);
    SextetRoundTrip(v3);
    DecodeQuantumOf(EncodeGroup(a, b, c), v0, v1, v2, v3);
    Rejoin(a, b);
    Rejoin(b, c);
    assert v1 % 16 * 16 + v2 / 4 == b;
    assert v2 % 4 * 64 + v3 == c;
  }

  lemma DecodeTailOne(x: byte)
    ensures DecodeQuantum([SextetChar(x / 4), SextetChar(x % 4 * 16), '=', '=']) == Some([x])
  {
    SextetRoundTrip(x / 4);
    DecodeQuantumOf([SextetChar(x / 4), SextetChar(x % 4 * 16), '=', '='], x / 4, x % 4 * 16, 0, 0);
    Rejoin(x, 0);
  }

  lemma DecodeTailTwo(x: byte, y: byte)
    ensures DecodeQuantum([SextetChar(x / 4), SextetChar(x % 4 * 16 + y / 16), SextetChar(y % 16 * 4), '='])
      == Some([x, y])
  {
    var v0, v1, v2 := x / 4, x % 4 * 16 + y / 16, y % 16 * 4;
    SextetRoundTrip(v0);
    SextetRoundTrip(v1);
    SextetRoundTrip(v2);
    DecodeQuantumOf([SextetChar(v0), SextetChar(v1), SextetChar(v2), '='], v0, v1, v2, 0);
    Rejoin(x, y);
    Rejoin(y, 0);
    assert v1 % 16 * 16 + v2 / 4 == y;
  }

  lemma DecodeLast(s: string, head: seq<byte>)
    requires |s| == 4 && DecodeQuantum(s) == Some(head)
    ensures Decode(s) == Some(head)
  {
    assert s[..4] == s && s[4..] == [];
    assert head + [] == head;
  }

  lemma DecodeEncodeOne(b: seq<byte>)
    requires |b| == 1
    ensures Decode(Encode(b)) == Some(b)
  {
    var s := Encode(b);
    DecodeTailOne(b[0]);
    assert s == [SextetChar(b[0] / 4), SextetChar(b[0] % 4 * 16), '=', '='];
    assert [b[0]] == b;
    DecodeLast(s, b);
  }

  lemma DecodeEncodeTwo(b: seq<byte>)
    requires |b| == 2
    ensures Decode(Encode(b)) == Some(b)
  {
    var s := Encode(b);
    DecodeTailTwo(b[0], b[1]);
    assert s == [SextetChar(b[0] / 4), SextetChar(b[0] % 4 * 16 + b[1] / 16), SextetChar(b[1] % 16 * 4), '='];
    assert [b[0], b[1]] == b;
    DecodeLast(s, b);
  }

  lemma DecodeCons(q: string, t: string, head: seq<byte>, rest: seq<byte>)
    requires |q| == 4 && DecodeQuantum(q) == Some(head)
    requires |head| == 3 && Decode(t) == Some(rest)
    ensures Decode(q + t) == Some(head + rest)
  {
    var s := q + t;
    assert s[..4] == q && s[4..] == t;
    if t == [] {
      assert head + rest == head;
    }
  }

  /** One full group in front of any decodable text. */
  lemma DecodeGroupThen(x: byte, y: byte, z: byte, t: string, rest: seq<byte>)
    requires Decode(t) == Some(rest)
    ensures Decode(EncodeGroup(x, y, z) + t) == Some([x, y, z] + rest)
  {
    DecodeGroup(x, y, z);
    DecodeCons(EncodeGroup(x, y, z), t, [x, y, z], rest);
  }

  lemma EncodeFront(b: seq<byte>)
    requires |b| >= 3
    ensures Encode(b) == EncodeGroup(b[0], b[1], b[2]) + Encode(b[3..])
  {
  }

  lemma {:induction false} DecodeEncodeGroup(b: seq<byte>)
    requires |b| >= 3 && Decode(Encode(b[3..])) == Some(b[3..])
    ensures Decode(Encode(b)) == Some(b)
  {
    var q, t, rest := EncodeGroup(b[0], b[1], b[2]), Encode(b[3..]), b[3..];
    EncodeFront(b);
    assert Encode(b) == q + t;
    DecodeGroupThen(b[0], b[1], b[2], t, rest);
    assert Decode(q + t) == Some([b[0], b[1], b[2]] + rest);
    assert [b[0], b[1], b[2]] + rest == b;
  }

  /** A quantum whose unused bits are not zero is rejected: "QR==" is not "QQ==". */
  lemma NonZeroPadBitsRejected()
    ensures Decode("QQ==") == Some([65])
    ensures Decode("QR==") == None
  {
    DecodeEncodeOne([65]);
    assert Encode([65]) == "QQ==";
    assert "QR=="[..4] == "QR==";
  }

  /** Decoding what was encoded gives back the octets. */
  lemma {:induction false} DecodeEncode(b: seq<byte>)
    ensures Decode(Encode(b)) == Some(b)
    decreases |b|
  {
    if |b| == 1 {
      DecodeEncodeOne(b);
    } else if |b| == 2 {
      DecodeEncodeTwo(b);
    } else if |b| >= 3 {
      DecodeEncode(b[3..]);
      DecodeEncodeGroup(b);
    }
  }

  /** Every character of an encoding is in the alphabet. */
  lemma {:induction false} EncodeAlphabet(b: seq<byte>)
    ensures forall i | 0 <= i < |Encode(b)| :: IsAlphabet(Encode(b)[i])
    decreases |b|
  {
    if |b| >= 3 {
      EncodeAlphabet(b[3..]);
      assert Encode(b) == EncodeGroup(b[0], b[1], b[2]) + Encode(b[3..]);
    }
  }

  /** JavaScript's `\s`: the ECMAScript white space and line terminator characters. */
  predicate IsJsSpace(c: char) {
    var n := c as int;
    (0x09 <= n <= 0x0D) || n == 0x20 || n == 0xA0 || n == 0x1680 || (0x2000 <= n <= 0x200A)
    || n == 0x2028 || n == 0x2029 || n == 0x202F || n == 0x205F || n == 0x3000 || n == 0xFEFF
  }

  /** `s.replace(/\s+/g, '')`. */
  function StripSpace(s: string): (r: string)
    ensures |r| <= |s|
    decreases |s|
  {
    if s == [] then [] else (if IsJsSpace(s[0]) then [] else [s[0]]) + StripSpace(s[1..])
  }

  /** The bridge's test for text that is already base64 (poi_messageflow_bridge.js:206-211). */
  predicate LooksLikeBase64(s: string) {
    if |s| < 32 then false
    else
      var clean := StripSpace(s);
      if |clean| % 4 != 0 then false
      else |clean| > 0 && forall i | 0 <= i < |clean| :: IsAlphabet(clean[i])
  }

  lemma {:induction false} StripSpaceKeepsOthers(s: string)
    ensures forall i | 0 <= i < |StripSpace(s)| :: !IsJsSpace(StripSpace(s)[i])
    ensures (forall i | 0 <= i < |s| :: !IsJsSpace(s[i])) ==> StripSpace(s) == s
    ensures (forall i | 0 <= i < |s| :: IsJsSpace(s[i])) ==> StripSpace(s) == []
    ensures forall i | 0 <= i < |s| && !IsJsSpace(s[i]) :: s[i] in StripSpace(s)
    decreases |s|
  {
    if s != [] {
      StripSpaceKeepsOthers(s[1..]);
      assert [s[0]] + s[1..] == s;
    }
  }

  lemma AlphabetIsNotSpace(c: char)
    requires IsAlphabet(c)
    ensures !IsJsSpace(c)
  {
  }

  /** Text that is only white space never looks like base64, however long. */
  lemma AllSpaceIsNotBase64(s: string)
    requires forall i | 0 <= i < |s| :: IsJsSpace(s[i])
    ensures !LooksLikeBase64(s)
  {
    StripSpaceKeepsOthers(s);
  }

  /** One character that is neither white space nor in the alphabet rules the text out. */
  lemma ForeignCharIsNotBase64(s: string, i: int)
    requires 0 <= i < |s| && !IsJsSpace(s[i]) && !IsAlphabet(s[i])
    ensures !LooksLikeBase64(s)
  {
    StripSpaceKeepsOthers(s);
  }

  /** Whatever this module encodes from 22 octets up looks like base64 again. */
  lemma {:induction false} EncodedLooksLikeBase64(b: seq<byte>)
    requires |b| >= 22
    ensures LooksLikeBase64(Encode(b))
  {
    var s := Encode(b);
    assert (|b| + 2) / 3 >= 8;
    assert |s| >= 32;
    EncodeAlphabet(b);
    forall i | 0 <= i < |s| ensures !IsJsSpace(s[i]) {
      AlphabetIsNotSpace(s[i]);
    }
    StripSpaceNoSpace(s);
  }

  /** Stripping leaves text without white space unchanged. */
  /** Stripping works character by character, so it keeps the order and the repeats of the rest. */
  lemma {:induction false} StripSpaceConcat(a: string, b: string)
    ensures StripSpace(a + b) == StripSpace(a) + StripSpace(b)
    decreases |a|
  {
    if a == [] {
      assert a + b == b;
    } else {
      assert (a + b)[0] == a[0] && (a + b)[1..] == a[1..] + b;
      StripSpaceConcat(a[1..], b);
    }
  }

  lemma {:induction false} StripSpaceNoSpace(s: string)
    requires forall i | 0 <= i < |s| :: !IsJsSpace(s[i])
    ensures StripSpace(s) == s
    decreases |s|
  {
    if s != [] {
      StripSpaceNoSpace(s[1..]);
      assert [s[0]] + s[1..] == s;
    }
  }
}

=== FILE: channel.dfy ===
/**
 * One delivery channel (`makeSock`, poi_messageflow_bridge.js:177-200, and the
 * send-or-POST step repeated at 407-413, 446-452, 471-477 and 490-496).
 *
 * The socket is reduced to its `readyState`; the runtime's timer table to the
 * set `armed` of handles that have not fired or been cleared. Each event method
 * is one callback of the source, run to completion.
 */
module Delivery {
  import opened Wrappers

  /** The current socket: none yet, or a `WebSocket` in one of its states. */
  datatype SocketState = NoSocket | Connecting | Open | Closed

  /** Where one payload went. */
  datatype Route = OverSocket | Posted(url: string) | Undelivered

  class Channel {
    const url: string
    /** The HTTP fallback addresses; the bridge configures one per channel. */
    const fallbacks: seq<string>
    var sock: SocketState
    var ready: bool
    /** The handle last returned by `setTimeout`, if any. */
    var timer: Option<nat>
    /** Timers scheduled and neither fired nor cleared. */
    var armed: set<nat>
    var nextHandle: nat

    /**
     * `ready` implies an open socket; at most one reconnect timer is live and it
     * is the one held in `timer`; and a reconnect is pending exactly when there
     * is no socket or it has closed, so the channel keeps trying to come back.
     */
    ghost predicate Valid()
      reads this
    {
      && (ready ==> sock == Open)
      && (timer.None? ==> armed == {})
      && (timer.Some? ==> armed <= {timer.value} && timer.value < nextHandle)
      && ((sock == NoSocket || sock == Closed) <==> armed != {})
    }

    predicate IsReady()
      reads this
    {
      ready
    }

    /**
     * Where `Deliver` sends a payload. `frameOk` says whether the frame goes
     * out: the socket is still OPEN (a closing socket keeps `ready` until its
     * 'close' event) and `ws.send` returns normally.
     */
    function RouteFor(frameOk: bool): Route
      reads this
    {
      if ready && sock == Open && frameOk then OverSocket
      else if |fallbacks| > 0 then Posted(fallbacks[0])
      else Undelivered
    }

    /** `makeSock(url)`: `connects` says whether `new WebSocket(url)` returns normally. */
    constructor (url: string, fallbacks: seq<string>, connects: bool)
      ensures Valid()
      ensures this.url == url && this.fallbacks == fallbacks && !ready
      ensures connects ==> sock == Connecting && armed == {}
      ensures !connects ==> sock == NoSocket && timer == Some(0) && armed == {0}
    {
      this.url := url;
      this.fallbacks := fallbacks;
      sock, ready, timer, armed, nextHandle := NoSocket, false, None, {}, 0;
      new;
      Start(connects);
    }

    /**
     * `schedule()`: clears the held timer, then arms a fresh one. The source
     * arms it for 1000 ms; timers are handles here, so the delay is not kept.
     */
    method Schedule()
      modifies this
      ensures timer == Some(old(nextHandle)) && nextHandle == old(nextHandle) + 1
      ensures armed == (if old(timer).Some? then old(armed) - {old(timer).value} else old(armed)) + {old(nextHandle)}
      ensures sock == old(sock) && ready == old(ready)
    {
      if timer.Some? {
        armed := armed - {timer.value};
      }
      timer := Some(nextHandle);
      armed := armed + {nextHandle};
      nextHandle := nextHandle + 1;
    }

    /** `open()`: a new socket, or a rescheduled attempt when the constructor throws. */
    method Start(connects: bool)
      requires timer.None? ==> armed == {}
      requires timer.Some? ==> armed <= {timer.value} && timer.value < nextHandle
      requires armed == {}
      requires !ready && (sock == NoSocket || sock == Closed)
      modifies this
      ensures Valid() && !ready
      ensures connects ==> sock == Connecting && armed == {} && timer == old(timer) && nextHandle == old(nextHandle)
      ensures !connects ==> sock == old(sock) && timer == Some(old(nextHandle)) && armed == {old(nextHandle)}
      ensures !connects ==> nextHandle == old(nextHandle) + 1
    {
      if connects {
        sock := Connecting;
      } else {
        Schedule();
      }
    }

    /** The socket's 'open' event. */
    method OnOpen()
      requires Valid() && sock == Connecting
      modifies this
      ensures Valid() && ready && sock == Open
      ensures timer == old(timer) && armed == old(armed) && nextHandle == old(nextHandle)
    {
      ready := true;
      sock := Open;
    }

    /** The socket's 'close' event: not ready, and a reconnect is scheduled. */
    method OnClose()
      requires Valid() && (sock == Connecting || sock == Open)
      modifies this
      ensures Valid() && !ready && sock == Closed
      ensures timer == Some(old(nextHandle)) && armed == {old(nextHandle)}
      ensures nextHandle == old(nextHandle) + 1
    {
      ready := false;
      sock := Closed;
      Schedule();
    }

    /** The socket's 'error' event: only readiness drops. */
    method OnError()
      requires Valid() && (sock == Connecting || sock == Open)
      modifies this
      ensures Valid() && !ready
      ensures sock == old(sock) && timer == old(timer) && armed == old(armed) && nextHandle == old(nextHandle)
    {
      ready := false;
    }

    /** The reconnect timer `h` fires and runs `open()`. */
    method OnTimer(h: nat, connects: bool)
      requires Valid() && h in armed
      modifies this
      ensures Valid() && !ready
      ensures connects ==> sock == Connecting && armed == {} && timer == old(timer) && nextHandle == old(nextHandle)
      ensures !connects ==> sock == old(sock) && timer == Some(old(nextHandle)) && armed == {old(nextHandle)}
      ensures !connects ==> nextHandle == old(nextHandle) + 1
    {
      armed := armed - {h};
      Start(connects);
    }

    /** `sendJson(obj)`: false without an open socket or when `ws.send` throws. */
    method SendJson(frameOk: bool) returns (ok: bool)
      ensures ok <==> sock == Open && frameOk
    {
      if sock != Open {
        return false;
      }
      ok := frameOk;
    }

    /**
     * `isReady() && sendJson(payload)`, else one POST to the first fallback
     * address: the loop over the fallbacks sets `ok` and stops after its first
     * iteration, as the source's `ok = true; break` does.
     */
    method Deliver(frameOk: bool) returns (route: Route)
      requires Valid()
      ensures route == RouteFor(frameOk)
      ensures route == OverSocket <==> ready && frameOk
      ensures route != OverSocket ==> route == (if |fallbacks| > 0 then Posted(fallbacks[0]) else Undelivered)
    {
      var ok := false;
      if IsReady() {
        ok := SendJson(frameOk);
      }
      if ok {
        return OverSocket;
      }
      route := Undelivered;
      var i := 0;
      while i < |fallbacks| && !ok
        invariant i <= |fallbacks|
        invariant i == (if ok then 1 else 0)
        invariant ok ==> route == Posted(fallbacks[0])
        invariant !ok ==> route == Undelivered
      {
        route := Posted(fallbacks[i]);
        ok := true;
        i := i + 1;
      }
    }
  }
}

=== FILE: dedupe.dfy ===
/**
 * The short-window deduplicator of captured API responses
 * (`recentApiSends` / `shouldSkipApiSend`, poi_messageflow_bridge.js:123-142).
 * The clock reading `Date.now()` is the parameter `now`.
 */
module Dedupe {

  /** Entries older than this many milliseconds are dropped. */
  const Ttl: int := 2000

  datatype Entry = Entry(key: string, ts: int)

  /** An entry survives eviction unless it is strictly older than the window. */
  predicate Live(e: Entry, now: int) {
    now - e.ts <= Ttl
  }

  /** The list after the eviction pass: the live entries, in their order. */
  function Evict(s: seq<Entry>, now: int): (r: seq<Entry>)
    ensures |r| <= |s|
    decreases |s|
  {
    if s == [] then [] else (if Live(s[0], now) then [s[0]] else []) + Evict(s[1..], now)
  }

  predicate HasKey(s: seq<Entry>, key: string) {
    exists i | 0 <= i < |s| :: s[i].key == key
  }

  /** What `shouldSkipApiSend(key)` returns at time `now`. */
  predicate Seen(s: seq<Entry>, key: string, now: int) {
    HasKey(Evict(s, now), key)
  }

  /** The list `shouldSkipApiSend(key)` leaves behind at time `now`. */
  function Record(s: seq<Entry>, key: string, now: int): (r: seq<Entry>)
    ensures HasKey(r, key) && |r| <= |s| + 1
  {
    var kept := Evict(s, now);
    if HasKey(kept, key) then kept
    else
      var grown := kept + [Entry(key, now)];
      assert grown[|kept|].key == key;
      grown
  }

  predicate DistinctKeys(s: seq<Entry>) {
    forall i, j | 0 <= i < j < |s| :: s[i].key != s[j].key
  }

  /** Eviction removes exactly the entries older than the window. */
  lemma {:induction false} EvictMembership(s: seq<Entry>, now: int, e: Entry)
    ensures e in Evict(s, now) <==> e in s && Live(e, now)
    decreases |s|
  {
    if s != [] {
      EvictMembership(s[1..], now, e);
      assert s == [s[0]] + s[1..];
    }
  }

  /** Eviction works element by element, so it keeps the order of the survivors. */
  lemma {:induction false} EvictConcat(a: seq<Entry>, b: seq<Entry>, now: int)
    ensures Evict(a + b, now) == Evict(a, now) + Evict(b, now)
    decreases |a|
  {
    if a == [] {
      assert a + b == b;
    } else {
      var head := if Live(a[0], now) then [a[0]] else [];
      assert (a + b)[0] == a[0] && (a + b)[1..] == a[1..] + b;
      assert Evict(a + b, now) == head + Evict(a[1..] + b, now);
      EvictConcat(a[1..], b, now);
      assert Evict(a, now) == head + Evict(a[1..], now);
    }
  }

  /** An entry exactly `Ttl` milliseconds old is kept. */
  lemma EvictKeepsBoundary(key: string, now: int)
    ensures Evict([Entry(key, now - Ttl)], now) == [Entry(key, now - Ttl)]
  {
    assert [Entry(key, now - Ttl)][1..] == [];
  }

  /** Eviction keeps a list whose entries are all inside the window unchanged. */
  lemma {:induction false} EvictAllLive(s: seq<Entry>, now: int)
    requires forall i | 0 <= i < |s| :: Live(s[i], now)
    ensures Evict(s, now) == s
    decreases |s|
  {
    if s != [] {
      EvictAllLive(s[1..], now);
      assert [s[0]] + s[1..] == s;
    }
  }

  lemma {:induction false} EvictDistinct(s: seq<Entry>, now: int)
    requires DistinctKeys(s)
    ensures DistinctKeys(Evict(s, now))
    decreases |s|
  {
    if s != [] {
      EvictDistinct(s[1..], now);
      var rest := Evict(s[1..], now);
      forall e | e in rest ensures e.key != s[0].key {
        EvictMembership(s[1..], now, e);
        var j :| 0 <= j < |s[1..]| && s[1..][j] == e;
        assert s[j + 1] == e;
      }
    }
  }

  /** The deduplicator never holds two entries with the same key. */
  lemma RecordDistinct(s: seq<Entry>, key: string, now: int)
    requires DistinctKeys(s)
    ensures DistinctKeys(Record(s, key, now))
  {
    EvictDistinct(s, now);
  }

  /** A hit adds nothing and refreshes nothing: the window runs from the first sighting. */
  lemma RecordOnHit(s: seq<Entry>, key: string, now: int)
    requires Seen(s, key, now)
    ensures Record(s, key, now) == Evict(s, now)
  {
  }

  /**
   * A first send is never skipped and is recorded; after it, a send is
   * skipped exactly when it has the same key and comes at most `Ttl`
   * milliseconds later, and a same-key send after the window is recorded
   * afresh.
   */
  lemma RepeatAfterWindow(key: string, t: int, probe: string, now: int)
    ensures !Seen([], key, t)
    ensures Record([], key, t) == [Entry(key, t)]
    ensures Seen([Entry(key, t)], probe, now) <==> probe == key && now - t <= Ttl
    ensures Record([Entry(key, t)], key, now) == if now - t <= Ttl then [Entry(key, t)] else [Entry(key, now)]
  {
    var one := [Entry(key, t)];
    assert one[1..] == [];
    assert Evict(one, now) == if now - t <= Ttl then one else [];
    if now - t <= Ttl {
      assert Evict(one, now)[0].key == key;
    }
  }

  /** The process-wide list of recent sends. */
  class RecentSends {
    var entries: seq<Entry>

    ghost predicate Valid()
      reads this
    {
      DistinctKeys(entries)
    }

    constructor ()
      ensures Valid() && entries == []
    {
      entries := [];
    }

    /** Evicts, tests, and records on a miss; true means "skip this send". */
    method ShouldSkip(key: string, now: int) returns (skip: bool)
      requires Valid()
      modifies this
      ensures Valid()
      ensures skip == Seen(old(entries), key, now)
      ensures entries == Record(old(entries), key, now)
    {
      ghost var s := entries;
      var i := |entries|;
      while i > 0
        invariant 0 <= i <= |s|
        invariant entries == s[..i] + Evict(s[i..], now)
      {
        i := i - 1;
        assert s[i..] == [s[i]] + s[i + 1..];
        assert entries[i] == s[i];
        if now - entries[i].ts > Ttl {
          entries := entries[..i] + entries[i + 1..];
        }
      }
      assert s[..0] == [] && s[0..] == s;
      assert entries == Evict(s, now);
      skip := HasKey(entries, key);
      assert skip == Seen(s, key, now);
      if !skip {
        entries := entries + [Entry(key, now)];
      }
      assert entries == Record(s, key, now);
      RecordDistinct(s, key, now);
    }
  }
}

=== FILE: engine.dfy ===
/**
 * The correlation engine: the command counter, the request table, the pending
 * body-fetch table, and the debug-protocol message handler
 * (poi_messageflow_bridge.js:236-500). Each event method is one branch of the
 * handler, run to completion; it returns what the branch emits, in order:
 * commands to the debug connection and payload deliveries.
 */
module Engine {
  import opened Wrappers
  import opened Text
  import opened Keys
  import opened Dedupe
  import opened Delivery
  import opened Payloads
  import opened Protocol
  import opened Targets

  /** A request-table entry; `asked` is the source's `_asked`. */
  datatype RequestInfo = RequestInfo(url: string, verb: string, postData: string, asked: bool)

  /** The capture kind of a pending body fetch; the Fetch path keeps the paused request's id. */
  datatype CaptureKind = ApiFetch(fetchRequestId: string) | ApiNet | Kcs2

  datatype PendingFetch = PendingFetch(url: string, verb: string, postData: string, kind: CaptureKind)

  /** The `request` of `Network.requestWillBeSent`; a missing field is the empty string. */
  datatype Request = Request(url: string, verb: string, postData: string)

  datatype Effect = Emit(cmd: Command) | Delivered(channel: ChannelName, payload: Payload, route: Route)

  /** A command that lets the paused request `requestId` go on. */
  predicate IsResume(e: Effect, requestId: string) {
    && e.Emit?
    && (e.cmd.name == "Fetch.continueRequest" || e.cmd.name == "Fetch.continueResponse")
    && e.cmd.params == ForRequest(requestId)
  }

  /** How many resume commands for `requestId` the effects contain. */
  function Resumes(out: seq<Effect>, requestId: string): nat
    decreases |out|
  {
    if out == [] then 0 else (if IsResume(out[0], requestId) then 1 else 0) + Resumes(out[1..], requestId)
  }

  lemma {:induction false} ResumesConcat(a: seq<Effect>, b: seq<Effect>, requestId: string)
    ensures Resumes(a + b, requestId) == Resumes(a, requestId) + Resumes(b, requestId)
    decreases |a|
  {
    if a == [] {
      assert a + b == b;
    } else {
      assert (a + b)[0] == a[0] && (a + b)[1..] == a[1..] + b;
      ResumesConcat(a[1..], b, requestId);
    }
  }

  /** How many payloads the effects deliver to `channel`. */
  function Deliveries(out: seq<Effect>, channel: ChannelName): nat
    decreases |out|
  {
    if out == [] then 0
    else (if out[0].Delivered? && out[0].channel == channel then 1 else 0) + Deliveries(out[1..], channel)
  }

  /** The socket address of each channel (111-113). */
  function SocketUrl(channel: ChannelName): string {
    match channel
    case Api => "ws://127.0.0.1:8890/api/websocket"
    case Image => "ws://127.0.0.1:8890/image/websocket"
    case ImageJson => "ws://127.0.0.1:8890/imageJson/websocket"
  }

  /** The HTTP fallback addresses of each channel (117-120): one apiece. */
  function FallbackUrls(channel: ChannelName): seq<string> {
    match channel
    case Api => ["http://127.0.0.1:8890/api"]
    case Image => ["http://127.0.0.1:8890/image"]
    case ImageJson => ["http://127.0.0.1:8890/imageJson"]
  }

  lemma CountOne(e: Effect, r: string, ch: ChannelName)
    ensures Resumes([e], r) == if IsResume(e, r) then 1 else 0
    ensures Deliveries([e], ch) == if e.Delivered? && e.channel == ch then 1 else 0
  {
    assert [e][1..] == [];
  }

  lemma {:induction false} DeliveriesConcat(a: seq<Effect>, b: seq<Effect>, channel: ChannelName)
    ensures Deliveries(a + b, channel) == Deliveries(a, channel) + Deliveries(b, channel)
    decreases |a|
  {
    if a == [] {
      assert a + b == b;
    } else {
      assert (a + b)[0] == a[0] && (a + b)[1..] == a[1..] + b;
      DeliveriesConcat(a[1..], b, channel);
    }
  }

  class Bridge {
    /** The `seq` counter: the id of the last command sent. */
    var lastId: nat
    /** `reqInfo`, keyed `ReqKey(sid, requestId)`. */
    var reqInfo: map<string, RequestInfo>
    /** `pending`, keyed `PendKey(sid, id)`. */
    var pending: map<string, PendingFetch>
    const recent: RecentSends
    const api: Channel
    const image: Channel
    const imageJson: Channel
    /** `new URL(url)`. */
    const parse: string -> Url

    /**
     * The channels and the deduplicator are consistent, each channel has its
     * configured fallback, and every pending key
     * was made from a command id already issued, so a new id never meets an
     * entry that is still waiting.
     */
    ghost predicate Valid()
      reads this, recent, api, image, imageJson
    {
      && recent.Valid() && api.Valid() && image.Valid() && imageJson.Valid()
      && api.fallbacks == FallbackUrls(ChannelName.Api) && image.fallbacks == FallbackUrls(Image)
      && imageJson.fallbacks == FallbackUrls(ImageJson)
      && forall s, i: nat | PendKey(s, i) in pending :: i <= lastId
    }

    /**
     * The bridge as it stands when the debug connection is made: the three
     * channels of 202-204 (each `*Up` says whether its first `new WebSocket`
     * returns normally), an empty deduplicator and empty tables.
     */
    constructor (parse: string -> Url, apiUp: bool, imageUp: bool, imageJsonUp: bool)
      ensures Valid() && fresh(recent) && fresh(api) && fresh(image) && fresh(imageJson)
      ensures lastId == 0 && reqInfo == map[] && pending == map[] && recent.entries == []
      ensures this.parse == parse
      ensures !api.ready && !image.ready && !imageJson.ready
    {
      lastId, reqInfo, pending := 0, map[], map[];
      this.parse := parse;
      recent := new RecentSends();
      api := new Channel(SocketUrl(ChannelName.Api), FallbackUrls(ChannelName.Api), apiUp);
      image := new Channel(SocketUrl(Image), FallbackUrls(Image), imageUp);
      imageJson := new Channel(SocketUrl(ImageJson), FallbackUrls(ImageJson), imageJsonUp);
    }

    /** `send(name, params, sid)`: the next id, which the returned command carries. */
    method Send(name: string, params: Params, sid: string) returns (cmd: Command)
      modifies this`lastId
      ensures lastId == old(lastId) + 1
      ensures cmd == Command(lastId, name, params, sid)
    {
      lastId := lastId + 1;
      cmd := Command(lastId, name, params, sid);
    }

    /** Records a pending body fetch under the key of the command just sent. */
    method Expect(sid: string, meta: PendingFetch)
      requires Valid() && lastId > 0
      requires forall s, i: nat | PendKey(s, i) in pending :: i < lastId
      modifies this`pending
      ensures Valid()
      ensures PendKey(sid, lastId) !in old(pending)
      ensures pending == old(pending)[PendKey(sid, lastId) := meta]
    {
      pending := pending[PendKey(sid, lastId) := meta];
      forall s, i: nat | PendKey(s, i) in pending
        ensures i <= lastId
      {
        PendKeyInjective(s, i, sid, lastId);
      }
    }

    /** The 'open' event of the debug connection (255-260). */
    method OnConnect() returns (out: seq<Effect>)
      requires Valid()
      modifies this`lastId
      ensures Valid()
      ensures lastId == old(lastId) + 5
      ensures out == [
        Emit(Command(old(lastId) + 1, "Network.enable", NoParams, "")),
        Emit(Command(old(lastId) + 2, "Network.setCacheDisabled", CacheDisabled(true), "")),
        Emit(Command(old(lastId) + 3, "Network.clearBrowserCache", NoParams, "")),
        Emit(Command(old(lastId) + 4, "Target.setDiscoverTargets", Discover(true), "")),
        Emit(Command(old(lastId) + 5, "Target.setAutoAttach", AutoAttach(true, false, true), ""))]
    {
      var c1 := Send("Network.enable", NoParams, "");
      var c2 := Send("Network.setCacheDisabled", CacheDisabled(true), "");
      var c3 := Send("Network.clearBrowserCache", NoParams, "");
      var c4 := Send("Target.setDiscoverTargets", Discover(true), "");
      var c5 := Send("Target.setAutoAttach", AutoAttach(true, false, true), "");
      out := [Emit(c1), Emit(c2), Emit(c3), Emit(c4), Emit(c5)];
    }

    /** `Target.targetCreated` (268-274); `info` is `None` when `params.targetInfo` is missing. */
    method OnTargetCreated(info: Option<Target>) returns (out: seq<Effect>)
      requires Valid()
      modifies this`lastId
      ensures Valid()
      ensures info.Some? && ShouldAttach(info.value) ==>
        lastId == old(lastId) + 1
        && out == [Emit(Command(lastId, "Target.attachToTarget", AttachTo(info.value.targetId, true), ""))]
      ensures !(info.Some? && ShouldAttach(info.value)) ==> lastId == old(lastId) && out == []
    {
      out := [];
      if info.Some? && ShouldAttach(info.value) {
        var c := Send("Target.attachToTarget", AttachTo(info.value.targetId, true), "");
        out := [Emit(c)];
      }
    }

    /**
     * `Target.attachedToTarget` (277-290): the new session gets the same four
     * set-up commands, ending with Fetch interception of the API paths.
     */
    method OnAttachedToTarget(session: string) returns (out: seq<Effect>)
      requires Valid()
      modifies this`lastId
      ensures Valid()
      ensures session == "" ==> lastId == old(lastId) && out == []
      ensures session != "" ==>
        lastId == old(lastId) + 4
        && out == [
          Emit(Command(old(lastId) + 1, "Network.enable", NoParams, session)),
          Emit(Command(old(lastId) + 2, "Network.setCacheDisabled", CacheDisabled(true), session)),
          Emit(Command(old(lastId) + 3, "Network.clearBrowserCache", NoParams, session)),
          Emit(Command(old(lastId) + 4, "Fetch.enable", Patterns([ApiPattern]), session))]
    {
      out := [];
      if session != "" {
        var c1 := Send("Network.enable", NoParams, session);
        var c2 := Send("Network.setCacheDisabled", CacheDisabled(true), session);
        var c3 := Send("Network.clearBrowserCache", NoParams, session);
        var c4 := Send("Fetch.enable", Patterns([ApiPattern]), session);
        out := [Emit(c1), Emit(c2), Emit(c3), Emit(c4)];
      }
    }

    /**
     * `Fetch.requestPaused` (293-313): an API response is held and its body
     * requested; anything else is let go at once.
     */
    method OnRequestPaused(sid: string, requestId: string, url: string, verb: string) returns (out: seq<Effect>)
      requires Valid()
      modifies this`lastId, this`pending
      ensures Valid()
      ensures lastId == old(lastId) + 1
      ensures Contains(url, "/kcsapi/") ==>
        && out == [Emit(Command(lastId, "Fetch.getResponseBody", ForRequest(requestId), sid))]
        && PendKey(sid, lastId) !in old(pending)
        && pending == old(pending)[PendKey(sid, lastId) := PendingFetch(url, OrGet(verb), "", ApiFetch(requestId))]
        && Resumes(out, requestId) == 0
      ensures !Contains(url, "/kcsapi/") ==>
        && out == [Emit(Command(lastId, "Fetch.continueRequest", ForRequest(requestId), sid))]
        && pending == old(pending)
        && Resumes(out, requestId) == 1
    {
      if Contains(url, "/kcsapi/") {
        var c := Send("Fetch.getResponseBody", ForRequest(requestId), sid);
        Expect(sid, PendingFetch(url, OrGet(verb), "", ApiFetch(requestId)));
        out := [Emit(c)];
        return;
      }
      var c := Send("Fetch.continueRequest", ForRequest(requestId), sid);
      out := [Emit(c)];
    }

    /** `Network.requestWillBeSent` (316-335): remembers the request; emits nothing. */
    method OnRequestWillBeSent(sid: string, requestId: string, request: Option<Request>)
      requires Valid()
      modifies this`reqInfo
      ensures Valid()
      ensures requestId == "" || request.None? || request.value.url == "" ==> reqInfo == old(reqInfo)
      ensures requestId != "" && request.Some? && request.value.url != "" ==>
        reqInfo == old(reqInfo)[ReqKey(sid, requestId) :=
          RequestInfo(request.value.url, OrGet(request.value.verb), request.value.postData, false)]
    {
      if requestId == "" || request.None? || request.value.url == "" {
        return;
      }
      var r := request.value;
      reqInfo := reqInfo[ReqKey(sid, requestId) := RequestInfo(r.url, OrGet(r.verb), r.postData, false)];
    }

    /** `Network.responseReceived` (338-352): bodies are requested for `/kcs2/` urls only. */
    method OnResponseReceived(sid: string, requestId: string) returns (out: seq<Effect>)
      requires Valid()
      modifies this`lastId, this`pending, this`reqInfo
      ensures Valid()
      ensures old(reqInfo).Keys == reqInfo.Keys
      ensures var key := ReqKey(sid, requestId);
        if key in old(reqInfo) && old(reqInfo)[key].url != "" && Contains(old(reqInfo)[key].url, "/kcs2/") then
          var info := old(reqInfo)[key];
          && lastId == old(lastId) + 1
          && out == [Emit(Command(lastId, "Network.getResponseBody", ForRequest(requestId), sid))]
          && PendKey(sid, lastId) !in old(pending)
          && pending == old(pending)[PendKey(sid, lastId) := PendingFetch(info.url, info.verb, "", Kcs2)]
          && reqInfo == old(reqInfo)[key := info.(asked := true)]
        else
          lastId == old(lastId) && out == [] && pending == old(pending) && reqInfo == old(reqInfo)
    {
      out := [];
      var key := ReqKey(sid, requestId);
      if key !in reqInfo || reqInfo[key].url == "" {
        return;
      }
      var info := reqInfo[key];
      if Contains(info.url, "/kcs2/") {
        var c := Send("Network.getResponseBody", ForRequest(requestId), sid);
        Expect(sid, PendingFetch(info.url, info.verb, "", Kcs2));
        reqInfo := reqInfo[key := info.(asked := true)];
        out := [Emit(c)];
      }
    }

    /**
     * `Network.loadingFinished` (356-368): a fallback body request for an API
     * url that was never asked for, at most once per request.
     */
    method OnLoadingFinished(sid: string, requestId: string) returns (out: seq<Effect>)
      requires Valid()
      modifies this`lastId, this`pending, this`reqInfo
      ensures Valid()
      ensures old(reqInfo).Keys == reqInfo.Keys
      ensures var key := ReqKey(sid, requestId);
        if key in old(reqInfo) && old(reqInfo)[key].url != "" && Contains(old(reqInfo)[key].url, "/kcsapi/")
           && !old(reqInfo)[key].asked then
          var info := old(reqInfo)[key];
          && lastId == old(lastId) + 1
          && out == [Emit(Command(lastId, "Network.getResponseBody", ForRequest(requestId), sid))]
          && PendKey(sid, lastId) !in old(pending)
          && pending == old(pending)[PendKey(sid, lastId) := PendingFetch(info.url, info.verb, info.postData, ApiNet)]
          && reqInfo == old(reqInfo)[key := info.(asked := true)]
        else
          lastId == old(lastId) && out == [] && pending == old(pending) && reqInfo == old(reqInfo)
    {
      out := [];
      var key := ReqKey(sid, requestId);
      if key in reqInfo {
        var info := reqInfo[key];
        if info.url != "" && Contains(info.url, "/kcsapi/") && !info.asked {
          var c := Send("Network.getResponseBody", ForRequest(requestId), sid);
          Expect(sid, PendingFetch(info.url, info.verb, info.postData, ApiNet));
          reqInfo := reqInfo[key := info.(asked := true)];
          out := [Emit(c)];
        }
      }
    }

    /** Where a payload for `channel` goes when `ws.send` would return normally iff `frameOk`. */
    function RouteOn(channel: ChannelName, frameOk: bool): Route
      reads api, image, imageJson
    {
      match channel
      case Api => api.RouteFor(frameOk)
      case Image => image.RouteFor(frameOk)
      case ImageJson => imageJson.RouteFor(frameOk)
    }

    /**
     * One delivery: over the channel's socket when it is ready and the frame
     * goes out, otherwise exactly one POST, to the channel's own fallback.
     */
    method DeliverOn(channel: ChannelName, p: Payload, frameOk: bool) returns (e: Effect)
      requires Valid()
      ensures e == Delivered(channel, p, RouteOn(channel, frameOk))
      ensures e.route == OverSocket || e.route == Posted(FallbackUrls(channel)[0])
    {
      var route: Route;
      match channel {
        case Api => route := api.Deliver(frameOk);
        case Image => route := image.Deliver(frameOk);
        case ImageJson => route := imageJson.Deliver(frameOk);
      }
      e := Delivered(channel, p, route);
    }

    /**
     * The dedupe-then-deliver step of both API paths (397-413, 438-452): a
     * payload whose key is live in the window is dropped, any other goes to
     * the API channel; either way the key's entry is in the list afterwards.
     */
    method ForwardApi(tag: string, p: Payload, now: int, frameOk: bool) returns (out: seq<Effect>)
      requires Valid()
      modifies recent
      ensures Valid()
      ensures recent.entries == Record(old(recent.entries), DedupeKey(tag, p), now)
      ensures out == if Seen(old(recent.entries), DedupeKey(tag, p), now) then [] else [Delivered(Api, p, RouteOn(Api, frameOk))]
      ensures forall r :: Resumes(out, r) == 0
    {
      out := [];
      var skip := recent.ShouldSkip(DedupeKey(tag, p), now);
      if !skip {
        var e := DeliverOn(Api, p, frameOk);
        out := [e];
      }
    }

    /**
     * What a body response does once its pending entry is consumed and the
     * body is a string (379-498): build the capture for its kind, deduplicate
     * on the API paths, deliver, and resume a Fetch-path request whether or
     * not its payload was a duplicate.
     */
    method Capture(sid: string, meta: PendingFetch, text: string, base64Encoded: bool, now: int, frameOk: bool)
      returns (out: seq<Effect>)
      requires Valid()
      modifies this`lastId, recent
      ensures Valid()
      ensures
        var u := parse(meta.url);
        match meta.kind
        case ApiFetch(r) =>
          var p := ApiPayload(meta.verb, meta.postData, u, text, base64Encoded);
          var k := DedupeKey("fetch", p);
          && recent.entries == Record(old(recent.entries), k, now)
          && lastId == old(lastId) + 1
          && out == (if Seen(old(recent.entries), k, now) then [] else [Delivered(Api, p, RouteOn(Api, frameOk))])
                    + [Emit(Command(lastId, "Fetch.continueResponse", ForRequest(r), sid))]
        case ApiNet =>
          var p := ApiPayload(meta.verb, meta.postData, u, text, base64Encoded);
          var k := DedupeKey("net", p);
          && recent.entries == Record(old(recent.entries), k, now)
          && lastId == old(lastId)
          && out == (if Seen(old(recent.entries), k, now) then [] else [Delivered(Api, p, RouteOn(Api, frameOk))])
        case Kcs2 =>
          var r := AssetPayload(meta.verb, u, text, base64Encoded);
          && recent.entries == old(recent.entries)
          && lastId == old(lastId)
          && out == [Delivered(r.0, r.1, RouteOn(r.0, frameOk))]
      ensures meta.kind.ApiFetch? ==> Resumes(out, meta.kind.fetchRequestId) == 1
    {
      var u := parse(meta.url);
      match meta.kind {
        case ApiFetch(fetchRequestId) =>
          var p := ApiPayload(meta.verb, meta.postData, u, text, base64Encoded);
          var forwarded := ForwardApi("fetch", p, now, frameOk);
          var c := Send("Fetch.continueResponse", ForRequest(fetchRequestId), sid);
          out := forwarded + [Emit(c)];
          assert Resumes(out, fetchRequestId) == 1 by {
            ResumesConcat(forwarded, [Emit(c)], fetchRequestId);
          }
        case ApiNet =>
          var p := ApiPayload(meta.verb, meta.postData, u, text, base64Encoded);
          out := ForwardApi("net", p, now, frameOk);
        case Kcs2 =>
          var r := AssetPayload(meta.verb, u, text, base64Encoded);
          var e := DeliverOn(r.0, r.1, frameOk);
          out := [e];
      }
    }

    /**
     * A command response (371-499). The pending entry is consumed; without a
     * string body nothing more happens, not even the resume of a paused
     * request (378). Otherwise the response is a capture.
     */
    method OnCommandResponse(sid: string, id: nat, body: Option<string>, base64Encoded: bool, now: int, frameOk: bool)
      returns (out: seq<Effect>)
      requires Valid()
      modifies this`lastId, this`pending, recent
      ensures Valid()
      ensures id == 0 || PendKey(sid, id) !in old(pending) ==>
        out == [] && pending == old(pending) && lastId == old(lastId) && recent.entries == old(recent.entries)
      ensures id != 0 && PendKey(sid, id) in old(pending) ==> pending == old(pending) - {PendKey(sid, id)}
      ensures body.None? ==> out == [] && lastId == old(lastId) && recent.entries == old(recent.entries)
      ensures id != 0 && PendKey(sid, id) in old(pending) && body.Some? ==>
        var meta := old(pending)[PendKey(sid, id)];
        var u := parse(meta.url);
        match meta.kind
        case ApiFetch(r) =>
          var p := ApiPayload(meta.verb, meta.postData, u, body.value, base64Encoded);
          var k := DedupeKey("fetch", p);
          && recent.entries == Record(old(recent.entries), k, now)
          && lastId == old(lastId) + 1
          && out == (if Seen(old(recent.entries), k, now) then [] else [Delivered(Api, p, RouteOn(Api, frameOk))])
                    + [Emit(Command(lastId, "Fetch.continueResponse", ForRequest(r), sid))]
        case ApiNet =>
          var p := ApiPayload(meta.verb, meta.postData, u, body.value, base64Encoded);
          var k := DedupeKey("net", p);
          && recent.entries == Record(old(recent.entries), k, now)
          && lastId == old(lastId)
          && out == (if Seen(old(recent.entries), k, now) then [] else [Delivered(Api, p, RouteOn(Api, frameOk))])
        case Kcs2 =>
          var r := AssetPayload(meta.verb, u, body.value, base64Encoded);
          && recent.entries == old(recent.entries)
          && lastId == old(lastId)
          && out == [Delivered(r.0, r.1, RouteOn(r.0, frameOk))]
      ensures id != 0 && PendKey(sid, id) in old(pending) && old(pending)[PendKey(sid, id)].kind.ApiFetch? ==>
        Resumes(out, old(pending)[PendKey(sid, id)].kind.fetchRequestId) == (if body.Some? then 1 else 0)
    {
      out := [];
      if id == 0 {
        return;
      }
      var key := PendKey(sid, id);
      if key !in pending {
        return;
      }
      var meta := pending[key];
      pending := pending - {key};
      if body.None? {
        return;
      }
      out := Capture(sid, meta, body.value, base64Encoded, now, frameOk);
    }
  }
}

=== FILE: keys.dfy ===
/**
 * The string keys of the two correlation tables: `${sid||''}:${requestId}` for
 * the request table and `${sid||''}:${id}` for pending body fetches. An absent
 * session id is the empty string throughout the model.
 */
module Keys {
  import opened Text

  /** Key of the pending body-fetch table: session id, ':', decimal command id. */
  function PendKey(sid: string, id: nat): string {
    sid + ":" + NatToString(id)
  }

  /** Key of the request table: session id, ':', the protocol's request id. */
  function ReqKey(sid: string, requestId: string): string {
    sid + ":" + requestId
  }

  /** The text after the last ':' of a key (all of it when there is none). */
  function AfterLastColon(s: string): (r: string)
    ensures ':' !in r && |r| <= |s|
    ensures r == s[|s| - |r|..]
    decreases |s|
  {
    if s == [] then []
    else if s[|s| - 1] == ':' then []
    else AfterLastColon(s[..|s| - 1]) + [s[|s| - 1]]
  }

  /** The command id a pending key was made from. */
  function IdOf(key: string): nat {
    var d := AfterLastColon(key);
    if IsDigits(d) then ParseDigits(d) else 0
  }

  lemma {:induction false} AfterLastColonSplit(a: string, d: string)
    requires ':' !in d
    ensures AfterLastColon(a + ":" + d) == d
    decreases |d|
  {
    var s := a + ":" + d;
    if d == [] {
      assert s[|s| - 1] == ':';
    } else {
      var d' := d[..|d| - 1];
      assert s[..|s| - 1] == a + ":" + d';
      AfterLastColonSplit(a, d');
      assert d' + [d[|d| - 1]] == d;
    }
  }

  /** The command id is recoverable from the key. */
  lemma IdOfPendKey(sid: string, id: nat)
    ensures IdOf(PendKey(sid, id)) == id
  {
    var d := NatToString(id);
    assert forall i | 0 <= i < |d| :: d[i] != ':';
    AfterLastColonSplit(sid, d);
    ParseNatToString(id);
  }

  /** Distinct (session, command id) pairs never share a key. */
  lemma PendKeyInjective(s1: string, i1: nat, s2: string, i2: nat)
    ensures PendKey(s1, i1) == PendKey(s2, i2) <==> s1 == s2 && i1 == i2
  {
    if PendKey(s1, i1) == PendKey(s2, i2) {
      IdOfPendKey(s1, i1);
      IdOfPendKey(s2, i2);
      var k := PendKey(s1, i1);
      var n := |NatToString(i1)| + 1;
      assert s1 == k[..|k| - n];
      assert s2 == k[..|k| - n];
    }
  }
}

=== FILE: payload.dfy ===
/**
 * Payload records, the dedupe key, and the routing of `/kcs2/` captures
 * (poi_messageflow_bridge.js:380-498). `new URL(...)` is taken as already
 * parsed: `Url` holds its `pathname`, its `search` (the empty string when
 * `u.search` is falsy) and the `searchParams` entries as a map.
 */
module Payloads {
  import opened Wrappers
  import opened Text
  import Base64
  import Utf8

  /** The `encoding` field: '' or 'base64'. */
  datatype Encoding = Raw | Base64Text {
    function Tag(): string {
      if Raw? then "" else "base64"
    }
  }

  datatype Url = Url(pathname: string, search: string, queryParams: map<string, string>)

  /** The JSON frame sent to a channel; `verb` is its `method` field. */
  datatype Payload = Payload(
    verb: string,
    encoding: Encoding,
    uri: string,
    queryString: string,
    queryParams: map<string, string>,
    postData: string,
    responseBody: string)

  datatype ChannelName = Api | Image | ImageJson

  /** `method || 'GET'`. */
  function OrGet(verb: string): (r: string)
    ensures r != "" && (verb != "" ==> r == verb)
    ensures verb == "" ==> r == "GET"
  {
    if verb == "" then "GET" else verb
  }

  /** `u.pathname + (u.search || '')`. */
  function Uri(u: Url): string {
    u.pathname + u.search
  }

  /** An API capture, on either path (388-394 and 429-435). */
  function ApiPayload(verb: string, postData: string, u: Url, body: string, base64Encoded: bool): (p: Payload)
    ensures p.responseBody == body && p.postData == postData
    ensures p.encoding == Base64Text <==> base64Encoded
    ensures p.verb == OrGet(verb) && p.uri == Uri(u) && p.queryString == u.search && p.queryParams == u.queryParams
  {
    Payload(OrGet(verb), if base64Encoded then Base64Text else Raw,
            Uri(u), u.search, u.queryParams, postData, body)
  }

  /** How many characters of the body the dedupe key keeps. */
  const BodyKeyLength: nat := 64

  /** The six key fields in their order. */
  function KeyFields(tag: string, p: Payload): seq<string> {
    [tag, p.verb, p.uri, p.queryString, p.postData, Prefix(p.responseBody, BodyKeyLength)]
  }

  /** The dedupe key: the fields joined with '|' (397-399, 438-440). */
  function DedupeKey(tag: string, p: Payload): string {
    Join(KeyFields(tag, p), '|')
  }

  /** The Fetch path's keys and the Network path's keys never coincide. */
  lemma PathTagsSeparateKeys(p: Payload, q: Payload)
    ensures DedupeKey("fetch", p) != DedupeKey("net", q)
  {
    var k1, k2 := DedupeKey("fetch", p), DedupeKey("net", q);
    assert k1 == "fetch" + ['|'] + Join(KeyFields("fetch", p)[1..], '|');
    assert k2 == "net" + ['|'] + Join(KeyFields("net", q)[1..], '|');
    assert k1[0] == 'f' && k2[0] == 'n';
  }

  /**
   * When no field contains '|', two captures share a key exactly when tag,
   * method, uri, query string, post data and the first 64 body characters agree.
   */
  lemma DedupeKeyFields(t1: string, p1: Payload, t2: string, p2: Payload)
    requires forall i | 0 <= i < 6 :: '|' !in KeyFields(t1, p1)[i] && '|' !in KeyFields(t2, p2)[i]
    ensures DedupeKey(t1, p1) == DedupeKey(t2, p2) <==> KeyFields(t1, p1) == KeyFields(t2, p2)
  {
    if DedupeKey(t1, p1) == DedupeKey(t2, p2) {
      SplitJoin(KeyFields(t1, p1), '|');
      SplitJoin(KeyFields(t2, p2), '|');
    }
  }

  /** Bodies that agree on their first 64 characters give the same key. */
  lemma BodyTailDoesNotMatter(tag: string, p: Payload, body: string)
    requires Prefix(body, BodyKeyLength) == Prefix(p.responseBody, BodyKeyLength)
    ensures DedupeKey(tag, p.(responseBody := body)) == DedupeKey(tag, p)
  {
  }

  /** `/\.json($|\?)/i` matches at index `i`. */
  predicate JsonAt(uri: string, i: int) {
    0 <= i && i + 5 <= |uri| && uri[i] == '.' && Lower(uri[i + 1..i + 5]) == "json"
    && (i + 5 == |uri| || uri[i + 5] == '?')
  }

  /** `/\.json($|\?)/i.test(uri)`. */
  predicate IsJsonUri(uri: string) {
    exists i | 0 <= i <= |uri| - 5 :: JsonAt(uri, i)
  }

  /** A pathname ending in ".json", in any letter case, routes as JSON whatever its query. */
  lemma JsonPathname(u: Url)
    requires |u.pathname| >= 5
    requires u.pathname[|u.pathname| - 5] == '.' && Lower(u.pathname[|u.pathname| - 4..]) == "json"
    requires u.search == "" || u.search[0] == '?'
    ensures IsJsonUri(Uri(u))
  {
    var uri, i := Uri(u), |u.pathname| - 5;
    assert uri[i + 1..i + 5] == u.pathname[|u.pathname| - 4..];
    assert JsonAt(uri, i);
  }

  /** A uri without a '.' is never routed as JSON. */
  lemma NoDotNoJson(uri: string)
    requires '.' !in uri
    ensures !IsJsonUri(uri)
  {
  }

  /** The binary-asset body: as given, or base64 of its UTF-8 bytes (480-482). */
  function AssetBody(body: string, base64Encoded: bool): string {
    if base64Encoded then body
    else if Base64.LooksLikeBase64(body) then body
    else Base64.Encode(Utf8.Encode(body))
  }

  /** A `/kcs2/` capture: its channel and its payload (463-489). */
  function AssetPayload(verb: string, u: Url, body: string, base64Encoded: bool): (r: (ChannelName, Payload))
    ensures r.1.postData == "" && r.1.verb == OrGet(verb)
    ensures r.1.uri == Uri(u) && r.1.queryString == u.search && r.1.queryParams == u.queryParams
    ensures IsJsonUri(Uri(u)) ==> r.0 == ImageJson && r.1.encoding == Raw && r.1.responseBody == body
    ensures !IsJsonUri(Uri(u)) ==> r.0 == Image && r.1.encoding == Base64Text
    ensures !IsJsonUri(Uri(u)) ==> r.1.responseBody == AssetBody(body, base64Encoded)
  {
    if IsJsonUri(Uri(u)) then
      (ImageJson, Payload(OrGet(verb), Raw, Uri(u), u.search, u.queryParams, "", body))
    else
      (Image, Payload(OrGet(verb), Base64Text, Uri(u), u.search, u.queryParams, "", AssetBody(body, base64Encoded)))
  }

  /**
   * The binary-asset body always stands for the response: it is passed through
   * when the protocol flagged it or it looks encoded, and otherwise decodes back
   * to exactly the original text.
   */
  lemma AssetBodyRecoverable(body: string, base64Encoded: bool)
    ensures base64Encoded || Base64.LooksLikeBase64(body) ==> AssetBody(body, base64Encoded) == body
    ensures !base64Encoded && !Base64.LooksLikeBase64(body) ==>
      Base64.Decode(AssetBody(body, base64Encoded)) == Some(Utf8.Encode(body))
      && Utf8.Decode(Utf8.Encode(body)) == Some(body)
  {
    Base64.DecodeEncode(Utf8.Encode(body));
    Utf8.DecodeEncode(body);
  }

  /**
   * No double encoding: once the step has produced something that looks like
   * base64 (every flagged or pre-encoded body, and every encoding of 22 bytes
   * or more), applying it again changes nothing.
   */
  lemma AssetBodyStable(body: string, base64Encoded: bool)
    requires base64Encoded || Base64.LooksLikeBase64(body) || |Utf8.Encode(body)| >= 22
    ensures Base64.LooksLikeBase64(AssetBody(body, base64Encoded)) || base64Encoded
    ensures AssetBody(AssetBody(body, base64Encoded), base64Encoded) == AssetBody(body, base64Encoded)
  {
    if !base64Encoded && !Base64.LooksLikeBase64(body) {
      Base64.EncodedLooksLikeBase64(Utf8.Encode(body));
    }
  }

  /** Four base64 letters are too short to pass as encoded, so they are encoded again. */
  lemma ShortBase64IsEncoded()
    ensures !Base64.LooksLikeBase64("AAAA")
    ensures AssetBody("AAAA", false) == "QUFBQQ=="
  {
    assert Utf8.Encode("AAAA") == [65, 65, 65, 65];
    assert Base64.Encode([65, 65, 65, 65]) == "QUFBQQ==";
  }
}

=== FILE: protocol.dfy ===
/** The debug-protocol commands the bridge issues (`send`, poi_messageflow_bridge.js:237-243). */
module Protocol {

  datatype RequestPattern = RequestPattern(urlPattern: string, requestStage: string)

  /** The parameter objects of the commands used. */
  datatype Params =
    | NoParams
    | CacheDisabled(cacheDisabled: bool)
    | Discover(discover: bool)
    | AutoAttach(autoAttach: bool, waitForDebuggerOnStart: bool, flatten: bool)
    | AttachTo(targetId: string, flatten: bool)
    | Patterns(patterns: seq<RequestPattern>)
    | ForRequest(requestId: string)

  /**
   * `{ id, method, params, sessionId? }`, with the protocol `method` in `name`;
   * an empty `sessionId` is left out of the message.
   */
  datatype Command = Command(id: nat, name: string, params: Params, sessionId: string)

  /** Fetch interception of the API paths, at the response stage. */
  const ApiPattern: RequestPattern := RequestPattern("*://*/kcsapi/*", "Response")
}

=== FILE: scenarios.dfy ===
/**
 * End-to-end runs of the bridge on fresh state. Each method drives the event
 * methods in the order the debug protocol delivers them, for one page-level
 * situation, and states what the bridge emits. Session ids, request ids,
 * addresses and bodies are left open wherever the outcome does not depend
 * on them.
 */
module Scenarios {
  import opened Wrappers
  import opened Text
  import opened Keys
  import opened Dedupe
  import opened Delivery
  import opened Payloads
  import opened Protocol
  import opened Engine

  /**
   * An intercepted API call while the channel socket is not up: the body is
   * requested, the payload goes in exactly one POST to the API fallback, and
   * the request is resumed once.
   */
  method InterceptedApiCall(parse: string -> Url, sid: string, requestId: string, url: string, verb: string,
                            body: string, base64Encoded: bool, now: int, frameOk: bool)
    returns (out: seq<Effect>)
    requires Contains(url, "/kcsapi/")
    ensures out == [
      Emit(Command(1, "Fetch.getResponseBody", ForRequest(requestId), sid)),
      Delivered(ChannelName.Api, ApiPayload(verb, "", parse(url), body, base64Encoded), Posted("http://127.0.0.1:8890/api")),
      Emit(Command(2, "Fetch.continueResponse", ForRequest(requestId), sid))]
    ensures Resumes(out, requestId) == 1
  {
    var b := new Bridge(parse, true, true, true);
    var o1 := b.OnRequestPaused(sid, requestId, url, verb);
    var o2 := b.OnCommandResponse(sid, 1, Some(body), base64Encoded, now, frameOk);
    out := o1 + o2;
    assert Resumes(out, requestId) == 1 by {
      ResumesConcat(o1, o2, requestId);
    }
  }

  /**
   * The port API call with query `?api_token=1` and body `{"ok":true}`: the
   * forwarded `uri` keeps the query string, which is also sent on its own and
   * as parameters.
   */
  method PortCall(frameOk: bool) returns (out: seq<Effect>)
    ensures |out| == 3
    ensures out[1] == Delivered(ChannelName.Api,
      Payload("GET", Raw, "/kcsapi/api_port/port?api_token=1", "?api_token=1", map["api_token" := "1"], "", "{\"ok\":true}"),
      Posted("http://127.0.0.1:8890/api"))
  {
    var url := "http://203.104.209.7" + "/kcsapi/" + "api_port/port?api_token=1";
    var u := Url("/kcsapi/api_port/port", "?api_token=1", map["api_token" := "1"]);
    OccursInMiddle("http://203.104.209.7", "/kcsapi/", "api_port/port?api_token=1");
    out := InterceptedApiCall(s => u, "S", "R1", url, "GET", "{\"ok\":true}", false, 0, frameOk);
  }

  /**
   * One API call on the Fetch path, on a bridge in any consistent state: the
   * capture is deduplicated under its "fetch" key, forwarded unless that key
   * is fresh in the window, and the paused request is resumed exactly once.
   */
  method FetchCapture(b: Bridge, sid: string, requestId: string, url: string, body: string, now: int)
    returns (out: seq<Effect>)
    requires b.Valid() && Contains(url, "/kcsapi/")
    modifies b, b.recent
    ensures b.Valid() && b.lastId == old(b.lastId) + 2
    ensures b.recent.entries == Record(old(b.recent.entries), DedupeKey("fetch", ApiPayload("GET", "", b.parse(url), body, false)), now)
    ensures Deliveries(out, ChannelName.Api) == if Seen(old(b.recent.entries), DedupeKey("fetch", ApiPayload("GET", "", b.parse(url), body, false)), now) then 0 else 1
    ensures Resumes(out, requestId) == 1
    ensures forall r | r != requestId :: Resumes(out, r) == 0
  {
    var o1 := b.OnRequestPaused(sid, requestId, url, "GET");
    var o2 := b.OnCommandResponse(sid, b.lastId, Some(body), false, now, true);
    out := o1 + o2;
    var c := Emit(Command(b.lastId, "Fetch.continueResponse", ForRequest(requestId), sid));
    var d := o2[..|o2| - 1];
    assert o2 == d + [c];
    CountOne(o1[0], requestId, ChannelName.Api);
    CountOne(c, requestId, ChannelName.Api);
    if d != [] {
      CountOne(d[0], requestId, ChannelName.Api);
    }
    assert o1 == [o1[0]];
    ResumesConcat(o1, d + [c], requestId);
    ResumesConcat(d, [c], requestId);
    DeliveriesConcat(o1, d + [c], ChannelName.Api);
    DeliveriesConcat(d, [c], ChannelName.Api);
    forall r | r != requestId ensures Resumes(out, r) == 0 {
      CountOne(o1[0], r, ChannelName.Api);
      CountOne(c, r, ChannelName.Api);
      if d != [] {
        CountOne(d[0], r, ChannelName.Api);
      }
      ResumesConcat(o1, d + [c], r);
      ResumesConcat(d, [c], r);
    }
  }

  /**
   * One API call on the Network path: request, loading finished, body. It is
   * deduplicated under its "net" key and resumes nothing.
   */
  method NetworkCapture(b: Bridge, sid: string, requestId: string, url: string, body: string, now: int)
    returns (out: seq<Effect>)
    requires b.Valid() && Contains(url, "/kcsapi/") && requestId != ""
    modifies b, b.recent
    ensures b.Valid() && b.lastId == old(b.lastId) + 1
    ensures b.recent.entries == Record(old(b.recent.entries), DedupeKey("net", ApiPayload("GET", "", b.parse(url), body, false)), now)
    ensures Deliveries(out, ChannelName.Api) == if Seen(old(b.recent.entries), DedupeKey("net", ApiPayload("GET", "", b.parse(url), body, false)), now) then 0 else 1
    ensures forall r :: Resumes(out, r) == 0
  {
    assert url != "";
    b.OnRequestWillBeSent(sid, requestId, Some(Request(url, "GET", "")));
    var o1 := b.OnLoadingFinished(sid, requestId);
    var o2 := b.OnCommandResponse(sid, b.lastId, Some(body), false, now, true);
    out := o1 + o2;
    assert o1 == [o1[0]];
    forall r ensures Resumes(out, r) == 0 {
      CountOne(o1[0], r, ChannelName.Api);
      if o2 != [] {
        assert o2 == [o2[0]];
        CountOne(o2[0], r, ChannelName.Api);
      }
      ResumesConcat(o1, o2, r);
    }
    CountOne(o1[0], requestId, ChannelName.Api);
    if o2 != [] {
      CountOne(o2[0], requestId, ChannelName.Api);
    }
    DeliveriesConcat(o1, o2, ChannelName.Api);
  }

  /**
   * The same request captured on the Fetch path and then on the Network path
   * is forwarded twice, however close together: the path tag in the key keeps
   * the second capture from being taken for a repeat. The paused request is
   * still resumed once.
   */
  method BothPathsForward(parse: string -> Url, sid: string, fetchId: string, networkId: string,
                          url: string, body: string, t: int, gap: int)
    returns (out: seq<Effect>)
    requires Contains(url, "/kcsapi/") && networkId != ""
    ensures Deliveries(out, ChannelName.Api) == 2
    ensures Resumes(out, fetchId) == 1
  {
    var b := new Bridge(parse, true, true, true);
    var p := ApiPayload("GET", "", parse(url), body, false);
    RepeatAfterWindow(DedupeKey("fetch", p), t, DedupeKey("net", p), t + gap);
    PathTagsSeparateKeys(p, p);
    var o1 := FetchCapture(b, sid, fetchId, url, body, t);
    var o2 := NetworkCapture(b, sid, networkId, url, body, t + gap);
    out := o1 + o2;
    ResumesConcat(o1, o2, fetchId);
    DeliveriesConcat(o1, o2, ChannelName.Api);
  }

  /**
   * The same API call intercepted in two sessions, `gap` milliseconds apart:
   * inside the 2-second window the second copy is dropped, after it both are
   * forwarded; each paused request is resumed either way.
   */
  method RepeatedInterception(parse: string -> Url, sid1: string, sid2: string, r1: string, r2: string,
                              url: string, body: string, t: int, gap: int)
    returns (out: seq<Effect>)
    requires Contains(url, "/kcsapi/") && r1 != r2 && gap >= 0
    ensures Deliveries(out, ChannelName.Api) == if gap <= Ttl then 1 else 2
    ensures Resumes(out, r1) == 1 && Resumes(out, r2) == 1
  {
    var b := new Bridge(parse, true, true, true);
    var key := DedupeKey("fetch", ApiPayload("GET", "", parse(url), body, false));
    RepeatAfterWindow(key, t, key, t + gap);
    var o1 := FetchCapture(b, sid1, r1, url, body, t);
    var o2 := FetchCapture(b, sid2, r2, url, body, t + gap);
    out := o1 + o2;
    ResumesConcat(o1, o2, r1);
    ResumesConcat(o1, o2, r2);
    DeliveriesConcat(o1, o2, ChannelName.Api);
  }

  /**
   * A body request answered without a string body consumes the pending entry
   * and emits nothing: the intercepted request is never resumed.
   */
  method BodylessAnswerStalls(parse: string -> Url, sid: string, requestId: string, url: string)
    returns (out: seq<Effect>, stillPending: bool)
    requires Contains(url, "/kcsapi/")
    ensures Resumes(out, requestId) == 0 && !stillPending
  {
    var b := new Bridge(parse, true, true, true);
    var o1 := b.OnRequestPaused(sid, requestId, url, "GET");
    var o2 := b.OnCommandResponse(sid, 1, None, false, 0, true);
    out := o1 + o2;
    ResumesConcat(o1, o2, requestId);
    stillPending := PendKey(sid, 1) in b.pending;
  }

  /**
   * A `/kcs2/` asset seen on the Network path: its body is requested when the
   * response arrives, and forwarded to the JSON channel as it is, or to the
   * image channel base64-encoded; the text "AAAA" is short enough to be
   * encoded again.
   */
  method AssetCapture(parse: string -> Url, sid: string, requestId: string, url: string, verb: string,
                      body: string, base64Encoded: bool)
    returns (out: seq<Effect>)
    requires Contains(url, "/kcs2/") && requestId != ""
    ensures |out| == 2
    ensures out[0] == Emit(Command(1, "Network.getResponseBody", ForRequest(requestId), sid))
    ensures IsJsonUri(Uri(parse(url))) ==>
      out[1] == Delivered(ImageJson, Payload(OrGet(verb), Raw, Uri(parse(url)), parse(url).search,
                                           parse(url).queryParams, "", body),
                        Posted("http://127.0.0.1:8890/imageJson"))
    ensures !IsJsonUri(Uri(parse(url))) ==>
      && out[1].Delivered? && out[1].channel == Image && out[1].route == Posted("http://127.0.0.1:8890/image")
      && out[1].payload.encoding == Base64Text
      && (body == "AAAA" && !base64Encoded ==> out[1].payload.responseBody == "QUFBQQ==")
  {
    var b := new Bridge(parse, true, true, true);
    assert url != "";
    b.OnRequestWillBeSent(sid, requestId, Some(Request(url, verb, "")));
    var o1 := b.OnResponseReceived(sid, requestId);
    ShortBase64IsEncoded();
    var o2 := b.OnCommandResponse(sid, 1, Some(body), base64Encoded, 0, true);
    out := o1 + o2;
  }

  /**
   * A channel whose first connection attempt throws: payloads are POSTed
   * until the reconnect timer fires and the socket opens, then they go over
   * the socket; a close sends them back to the fallback.
   */
  method ReconnectCycle() returns (before: Route, during: Route, after: Route)
    ensures before == Posted("http://127.0.0.1:8890/api")
    ensures during == OverSocket
    ensures after == Posted("http://127.0.0.1:8890/api")
  {
    var c := new Channel(SocketUrl(ChannelName.Api), FallbackUrls(ChannelName.Api), false);
    before := c.Deliver(true);
    c.OnTimer(0, true);
    c.OnOpen();
    during := c.Deliver(true);
    c.OnClose();
    after := c.Deliver(true);
  }
}

=== FILE: targets.dfy ===
/**
 * Target selection at start-up (`pick`, poi_messageflow_bridge.js:219-233) and
 * the explicit-attach rule for newly created targets (268-274).
 */
module Targets {
  import opened Wrappers
  import opened Text

  /**
   * A debuggable target as discovery or `Target.targetCreated` reports it; a
   * missing `url` or `webSocketDebuggerUrl` is the empty string.
   */
  datatype Target = Target(targetId: string, kind: string, url: string, debuggerUrl: string)

  /** Why start-up stops: no target, or one without a debugger address. */
  datatype Selection = Chosen(target: Target) | Exit(status: int)

  /** `arr.find(p)`, as the index of the first element satisfying `p`. */
  function FindIndex(arr: seq<Target>, p: Target -> bool): (r: Option<nat>)
    ensures r.Some? ==> r.value < |arr| && p(arr[r.value])
    ensures r.Some? ==> forall j | 0 <= j < r.value :: !p(arr[j])
    ensures r.None? ==> forall j | 0 <= j < |arr| :: !p(arr[j])
    decreases |arr|
  {
    if arr == [] then None
    else if p(arr[0]) then Some(0)
    else match FindIndex(arr[1..], p)
      case None => None
      case Some(i) => Some(i + 1)
  }

  predicate IsWebview(t: Target) { t.kind == "webview" }
  predicate IsPage(t: Target) { t.kind == "page" }

  /** Rule (a): a webview or page whose lower-cased url the filter matches. */
  predicate Preferred(t: Target, filter: string -> bool) {
    (IsWebview(t) || IsPage(t)) && filter(Lower(t.url))
  }

  predicate Exists(arr: seq<Target>, p: Target -> bool) {
    exists i | 0 <= i < |arr| :: p(arr[i])
  }

  /**
   * `pick(arr)`: the index it chooses. `filter` stands for the FILTER regular
   * expression tested against the lower-cased url.
   */
  function PickIndex(arr: seq<Target>, filter: string -> bool): Option<nat> {
    match FindIndex(arr, t => Preferred(t, filter))
    case Some(i) => Some(i)
    case None =>
      match FindIndex(arr, IsWebview)
      case Some(i) => Some(i)
      case None =>
        match FindIndex(arr, IsPage)
        case Some(i) => Some(i)
        case None => if arr == [] then None else Some(0)
  }

  /** The four rules, in their order of preference. */
  lemma PickIndexSpec(arr: seq<Target>, filter: string -> bool)
    ensures PickIndex(arr, filter).None? <==> arr == []
    ensures PickIndex(arr, filter).Some? ==> PickIndex(arr, filter).value < |arr|
    ensures Exists(arr, t => Preferred(t, filter)) ==>
      var i := PickIndex(arr, filter).value;
      Preferred(arr[i], filter) && forall j | 0 <= j < i :: !Preferred(arr[j], filter)
    ensures !Exists(arr, t => Preferred(t, filter)) && Exists(arr, IsWebview) ==>
      var i := PickIndex(arr, filter).value;
      IsWebview(arr[i]) && forall j | 0 <= j < i :: !IsWebview(arr[j])
    ensures !Exists(arr, t => Preferred(t, filter)) && !Exists(arr, IsWebview) && Exists(arr, IsPage) ==>
      var i := PickIndex(arr, filter).value;
      IsPage(arr[i]) && forall j | 0 <= j < i :: !IsPage(arr[j])
    ensures arr != [] && !Exists(arr, IsWebview) && !Exists(arr, IsPage) ==> PickIndex(arr, filter) == Some(0)
  {
    var a := FindIndex(arr, t => Preferred(t, filter));
    var w := FindIndex(arr, IsWebview);
    var p := FindIndex(arr, IsPage);
    if Exists(arr, t => Preferred(t, filter)) {
      var k :| 0 <= k < |arr| && Preferred(arr[k], filter);
      assert a.Some?;
    } else if Exists(arr, IsWebview) {
      var k :| 0 <= k < |arr| && IsWebview(arr[k]);
      assert w.Some?;
    } else if Exists(arr, IsPage) {
      var k :| 0 <= k < |arr| && IsPage(arr[k]);
      assert p.Some?;
    }
  }

  /** The target `pick` returns; `None` only for an empty list. */
  function Pick(arr: seq<Target>, filter: string -> bool): (r: Option<Target>)
    ensures r.None? <==> arr == []
    ensures r.Some? ==> r.value in arr
  {
    PickIndexSpec(arr, filter);
    match PickIndex(arr, filter)
    case None => None
    case Some(i) => Some(arr[i])
  }

  /** Start-up: a chosen target with a debugger address, or exit status 1. */
  function Select(arr: seq<Target>, filter: string -> bool): (r: Selection)
    ensures r.Exit? ==> r.status == 1
    ensures r.Chosen? <==> Pick(arr, filter).Some? && Pick(arr, filter).value.debuggerUrl != ""
    ensures r.Chosen? ==> r.target in arr && r.target.debuggerUrl != ""
  {
    match Pick(arr, filter)
    case None => Exit(1)
    case Some(t) => if t.debuggerUrl == "" then Exit(1) else Chosen(t)
  }

  /** A created target is attached explicitly when it is a webview of the game's host. */
  predicate ShouldAttach(t: Target) {
    var u := Lower(t.url);
    t.kind == "webview" && (Contains(u, "play.games.dmm.com") || Contains(u, "kancolle"))
  }

  /** The attach rule looks at the url only up to letter case. */
  lemma ShouldAttachIgnoresCase(t: Target, url: string)
    requires Lower(url) == Lower(t.url)
    ensures ShouldAttach(t.(url := url)) <==> ShouldAttach(t)
  {
  }

  /** Lower-casing a target's url first does not change whether it is attached. */
  lemma ShouldAttachLowered(t: Target)
    ensures ShouldAttach(t.(url := Lower(t.url))) <==> ShouldAttach(t)
  {
    LowerIdempotent(t.url);
    ShouldAttachIgnoresCase(t, Lower(t.url));
  }

  /**
   * A page that the filter matches wins over a webview that it does not match,
   * whatever their order in the list.
   */
  lemma MatchingPageBeatsOtherWebview(page: Target, view: Target, filter: string -> bool)
    requires IsPage(page) && filter(Lower(page.url))
    requires IsWebview(view) && !filter(Lower(view.url))
    ensures Pick([page, view], filter) == Some(page)
    ensures Pick([view, page], filter) == Some(page)
  {
    PickIndexSpec([page, view], filter);
    PickIndexSpec([view, page], filter);
    assert Preferred([page, view][0], filter);
    assert Preferred([view, page][1], filter);
  }
}

=== FILE: text.dfy ===
/**
 * String helpers with JavaScript meaning: `includes`, ASCII `toLowerCase`,
 * `slice(0, n)`, `Array.prototype.join` and its inverse `split`.
 */
module Text {

  /** `t` occurs in `s` starting at index `i`. */
  predicate OccursAt(s: string, t: string, i: int) {
    0 <= i <= |s| - |t| && s[i..i + |t|] == t
  }

  /** `s.includes(t)`: `t` occurs in `s` at some position. */
  predicate Contains(s: string, t: string) {
    exists i | 0 <= i <= |s| - |t| :: OccursAt(s, t, i)
  }

  /** The middle part of a concatenation occurs in it, just after the first part. */
  lemma OccursInMiddle(a: string, t: string, c: string)
    ensures OccursAt(a + t + c, t, |a|) && Contains(a + t + c, t)
  {
    assert (a + t + c)[|a|..|a| + |t|] == t;
    assert OccursAt(a + t + c, t, |a|);
  }

  function LowerChar(c: char): char {
    if 'A' <= c <= 'Z' then (c as int + 32) as char else c
  }

  /** `toLowerCase()` restricted to ASCII letters. */
  function Lower(s: string): (r: string)
    ensures |r| == |s|
    ensures forall i | 0 <= i < |s| :: r[i] == LowerChar(s[i])
  {
    seq(|s|, i requires 0 <= i < |s| => LowerChar(s[i]))
  }

  /** Lower-casing twice is lower-casing once. */
  lemma LowerIdempotent(s: string)
    ensures Lower(Lower(s)) == Lower(s)
  {
    assert forall i | 0 <= i < |s| :: LowerChar(LowerChar(s[i])) == LowerChar(s[i]);
  }

  /** `s.slice(0, n)`. */
  function Prefix(s: string, n: nat): (r: string)
    ensures |r| == if |s| <= n then |s| else n
    ensures r <= s
  {
    if |s| <= n then s else s[..n]
  }

  /** `parts.join(sep)`. */
  function Join(parts: seq<string>, sep: char): (r: string)
    decreases |parts|
  {
    if |parts| == 0 then ""
    else if |parts| == 1 then parts[0]
    else parts[0] + [sep] + Join(parts[1..], sep)
  }

  /** `s.split(sep)` for a one-character separator: always at least one part. */
  function Split(s: string, sep: char): (r: seq<string>)
    ensures |r| >= 1
    decreases |s|
  {
    if s == [] then [""]
    else
      var rest := Split(s[1..], sep);
      if s[0] == sep then [""] + rest else [[s[0]] + rest[0]] + rest[1..]
  }

  lemma {:induction false} SplitNoSep(a: string, sep: char)
    requires sep !in a
    ensures Split(a, sep) == [a]
    decreases |a|
  {
    if a != [] {
      SplitNoSep(a[1..], sep);
      assert [a[0]] + a[1..] == a;
    }
  }

  lemma {:induction false} SplitAppend(a: string, sep: char, b: string)
    requires sep !in a
    ensures Split(a + [sep] + b, sep) == [a] + Split(b, sep)
    decreases |a|
  {
    if a == [] {
      assert a + [sep] + b == [sep] + b;
      assert ([sep] + b)[1..] == b;
    } else {
      var s := a + [sep] + b;
      assert s[0] == a[0];
      assert s[1..] == a[1..] + [sep] + b;
      SplitAppend(a[1..], sep, b);
      assert [a[0]] + a[1..] == a;
    }
  }

  /** Joining parts that do not contain the separator can be undone by splitting. */
  lemma {:induction false} SplitJoin(parts: seq<string>, sep: char)
    requires |parts| >= 1
    requires forall i | 0 <= i < |parts| :: sep !in parts[i]
    ensures Split(Join(parts, sep), sep) == parts
    decreases |parts|
  {
    if |parts| == 1 {
      SplitNoSep(parts[0], sep);
    } else {
      SplitJoin(parts[1..], sep);
      SplitAppend(parts[0], sep, Join(parts[1..], sep));
      assert [parts[0]] + parts[1..] == parts;
    }
  }

  /** The decimal digits of `n`, as `String(n)` writes them. */
  function Digit(d: nat): (c: char)
    requires d < 10
    ensures '0' <= c <= '9' && c as int - '0' as int == d
  {
    ('0' as int + d) as char
  }

  predicate IsDigits(s: string) {
    forall i | 0 <= i < |s| :: '0' <= s[i] <= '9'
  }

  function NatToString(n: nat): (r: string)
    ensures |r| >= 1 && IsDigits(r)
    decreases n
  {
    if n < 10 then [Digit(n)] else NatToString(n / 10) + [Digit(n % 10)]
  }

  function ParseDigits(s: string): nat
    requires IsDigits(s)
    decreases |s|
  {
    if s == [] then 0
    else ParseDigits(s[..|s| - 1]) * 10 + (s[|s| - 1] as int - '0' as int)
  }

  /** Reading back the decimal rendering gives the number. */
  lemma {:induction false} ParseNatToString(n: nat)
    ensures ParseDigits(NatToString(n)) == n
    decreases n
  {
    var s := NatToString(n);
    if n >= 10 {
      ParseNatToString(n / 10);
      assert s[..|s| - 1] == NatToString(n / 10);
    }
  }
}

=== FILE: utf8.dfy ===
/**
 * UTF-8 (RFC 3629), as `Buffer.from(s, 'utf8')` produces it. A string here is a
 * sequence of Unicode scalar values, so every character has exactly one encoding.
 */
module Utf8 {
  import opened Wrappers
  import opened Octets

  predicate IsContinuation(b: byte) {
    0x80 <= b < 0xC0
  }

  /** The one to four bytes of one scalar value. */
  function EncodeScalar(c: char): (r: seq<byte>)
    ensures 1 <= |r| <= 4
    ensures (c as int < 0x80) <==> |r| == 1
  {
    var n := c as int;
    if n < 0x80 then [n]
    else if n < 0x800 then [0xC0 + n / 0x40, 0x80 + n % 0x40]
    else if n < 0x1_0000 then [0xE0 + n / 0x1000, 0x80 + n / 0x40 % 0x40, 0x80 + n % 0x40]
    else [0xF0 + n / 0x4_0000, 0x80 + n / 0x1000 % 0x40, 0x80 + n / 0x40 % 0x40, 0x80 + n % 0x40]
  }

  function Encode(s: string): (r: seq<byte>)
    ensures |s| <= |r| <= 4 * |s|
    decreases |s|
  {
    if s == [] then [] else EncodeScalar(s[0]) + Encode(s[1..])
  }

  /** Reads one scalar value at the head of `b`: the character and how many bytes it took. */
  function DecodeScalar(b: seq<byte>): (r: Option<(char, nat)>)
    requires |b| > 0
    ensures r.Some? ==> 1 <= r.value.1 <= |b|
  {
    var b0: int := b[0];
    if b0 < 0x80 then Some((b0 as char, 1))
    else if 0xC0 <= b0 < 0xE0 && |b| >= 2 && IsContinuation(b[1]) then
      var v := (b0 - 0xC0) * 0x40 + (b[1] as int - 0x80);
      if v < 0x80 then None else Some((v as char, 2))
    else if 0xE0 <= b0 < 0xF0 && |b| >= 3 && IsContinuation(b[1]) && IsContinuation(b[2]) then
      var v := (b0 - 0xE0) * 0x1000 + (b[1] as int - 0x80) * 0x40 + (b[2] as int - 0x80);
      if v < 0x800 || 0xD800 <= v < 0xE000 then None else Some((v as char, 3))
    else if 0xF0 <= b0 < 0xF8 && |b| >= 4 && IsContinuation(b[1]) && IsContinuation(b[2]) && IsContinuation(b[3]) then
      var v := (b0 - 0xF0) * 0x4_0000 + (b[1] as int - 0x80) * 0x1000 + (b[2] as int - 0x80) * 0x40 + (b[3] as int - 0x80);
      if v < 0x1_0000 || v >= 0x11_0000 then None else Some((v as char, 4))
    else None
  }

  /** Strict decoding: `None` for any ill-formed byte sequence. */
  function Decode(b: seq<byte>): Option<string>
    decreases |b|
  {
    if b == [] then Some([])
    else match DecodeScalar(b)
      case None => None
      case Some((c, n)) =>
        match Decode(b[n..])
        case None => None
        case Some(rest) => Some([c] + rest)
  }

  lemma DecodeTwo(n: int, rest: seq<byte>)
    requires 0x80 <= n < 0x800
    ensures var b := [0xC0 + n / 0x40, 0x80 + n % 0x40] + rest;
      DecodeScalar(b) == Some((n as char, 2))
  {
    var b := [0xC0 + n / 0x40, 0x80 + n % 0x40] + rest;
    assert b[0] == 0xC0 + n / 0x40 && b[1] == 0x80 + n % 0x40;
  }

  lemma DecodeThree(n: int, rest: seq<byte>)
    requires 0x800 <= n < 0x1_0000 && !(0xD800 <= n < 0xE000)
    ensures var b := [0xE0 + n / 0x1000, 0x80 + n / 0x40 % 0x40, 0x80 + n % 0x40] + rest;
      DecodeScalar(b) == Some((n as char, 3))
  {
    var b := [0xE0 + n / 0x1000, 0x80 + n / 0x40 % 0x40, 0x80 + n % 0x40] + rest;
    assert b[0] == 0xE0 + n / 0x1000 && b[1] == 0x80 + n / 0x40 % 0x40 && b[2] == 0x80 + n % 0x40;
    var hi, mid, lo := n / 0x1000, n / 0x40 % 0x40, n % 0x40;
    assert n / 0x40 == hi * 0x40 + mid;
    assert hi * 0x1000 + mid * 0x40 + lo == n;
  }

  lemma DecodeFour(n: int, rest: seq<byte>)
    requires 0x1_0000 <= n < 0x11_0000
    ensures var b := [0xF0 + n / 0x4_0000, 0x80 + n / 0x1000 % 0x40, 0x80 + n / 0x40 % 0x40, 0x80 + n % 0x40] + rest;
      DecodeScalar(b) == Some((n as char, 4))
  {
    var b := [0xF0 + n / 0x4_0000, 0x80 + n / 0x1000 % 0x40, 0x80 + n / 0x40 % 0x40, 0x80 + n % 0x40] + rest;
    assert b[0] == 0xF0 + n / 0x4_0000 && b[1] == 0x80 + n / 0x1000 % 0x40;
    assert b[2] == 0x80 + n / 0x40 % 0x40 && b[3] == 0x80 + n % 0x40;
    var q0, q1, q2 := n / 0x40, n / 0x1000, n / 0x4_0000;
    assert q1 == q0 / 0x40;
    assert q2 == q1 / 0x40;
    assert n == q0 * 0x40 + n % 0x40;
    assert q0 == q1 * 0x40 + q0 % 0x40;
    assert q1 == q2 * 0x40 + q1 % 0x40;
    assert q2 * 0x4_0000 + (q1 % 0x40) * 0x1000 + (q0 % 0x40) * 0x40 + n % 0x40 == n;
  }

  lemma DecodeEncodeScalar(c: char, rest: seq<byte>)
    ensures |EncodeScalar(c) + rest| > 0
    ensures DecodeScalar(EncodeScalar(c) + rest) == Some((c, |EncodeScalar(c)|))
  {
    var n := c as int;
    if n < 0x80 {
    } else if n < 0x800 {
      DecodeTwo(n, rest);
    } else if n < 0x1_0000 {
      DecodeThree(n, rest);
    } else {
      DecodeFour(n, rest);
    }
  }

  /** Decoding what was encoded gives back the string. */
  lemma {:induction false} DecodeEncode(s: string)
    ensures Decode(Encode(s)) == Some(s)
    decreases |s|
  {
    if s != [] {
      var head := EncodeScalar(s[0]);
      var b := Encode(s);
      assert b == head + Encode(s[1..]);
      DecodeEncodeScalar(s[0], Encode(s[1..]));
      assert b[|head|..] == Encode(s[1..]);
      DecodeEncode(s[1..]);
      assert [s[0]] + s[1..] == s;
    }
  }

  /** ASCII text encodes one byte per character, each equal to its code. */
  lemma {:induction false} EncodeAscii(s: string)
    requires forall i | 0 <= i < |s| :: s[i] as int < 0x80
    ensures |Encode(s)| == |s|
    ensures forall i | 0 <= i < |s| :: Encode(s)[i] == s[i] as int
    decreases |s|
  {
    if s != [] {
      EncodeAscii(s[1..]);
    }
  }
}

=== FILE: wrappers.dfy ===
/** Option, for values JavaScript leaves `undefined`. */
module Wrappers {
  datatype Option<+T> = None | Some(value: T)
}

/** Octets, as a Node `Buffer` holds them. */
module Octets {
  type byte = x: int | 0 <= x < 256
}
